=== FILE: README.md ===
# sphinxnotes-incrbuild, modelled in Dafny

sphinxnotes-incrbuild wraps one `sphinx-build` run so that a CI job can build
incrementally. For the html builder it:

1. restores the html output and the doctree directory from a cache directory;
2. stamps the HTML templates of the theme and of Sphinx with an old mtime, so
   that freshly installed templates do not force a full rebuild;
3. lets `git-restore-mtime` give every source file its commit time;
4. runs the build;
5. saves the output back to the cache when the build returned 0.

Any other builder is handed to Sphinx unchanged.

This project models that control flow and its filesystem effects:

- `filesystem.dfy` (`FileSystem`): a filesystem as a map from paths (name
  sequences) to files (content and mtime) and directories, with the tree
  algebra the proofs use: subtrees, pruning, grafting, the ancestors
  `makedirs` creates, and frame predicates.
- `shutil.dfy` (`Shutil`): `shutil.rmtree(ignore_errors=True)`,
  `Path.mkdir()`, `shutil.copytree` and `shutil.move`, with the exceptions
  CPython raises and the order in which it checks for them.
- `utils.dfy` (`Utils`): the tool's `copy` and `move`, which swallow
  `FileNotFoundError` and nothing else.
- `cache.dfy` (`Cache`): the directory layout, `restore_cache`,
  `save_cache`, their effects and the save/restore round trip.
- `nesting.dfy` (`DoctreeNesting`): the plain (non-make) layout, where the
  doctree directory lies inside the html directory. Here the restore as
  written nests the doctrees one level too deep, and the third run fails.
- `theme.dfy` (`Theme`): `restore_theme_files_mtime`. It selects the
  templates, stamps them, and exits on a `PermissionError`.
- `main.dfy` (`Cli`): `main` as written (`Cli.Main`) and with both
  findings corrected (`Cli.MainFixed`). The build, the git helper and the
  theme name are oracles.

An outcome records the exception raised, if any, and the filesystem at that
moment. `main` ends in one of three ways:

- it returns a code;
- `sys.exit` is called;
- an exception escapes.

## Model

| member | source | states |
|---|---|---|
| Shutil.RmTree | src/sphinxnotes/incrbuild/__main__.py:194-195 | Removing a directory leaves nothing at or below it. A missing path or a regular file leaves the filesystem unchanged. Nothing outside the path changes, and well-formedness is kept. |
| Shutil.Mkdir | src/sphinxnotes/incrbuild/__main__.py:207 | Succeeds exactly when the path is absent, its parent is a directory, and no file lies above it. On success it adds just that directory. An existing path raises FileExistsError. |
| Shutil.CopyTree | src/sphinxnotes/incrbuild/utils.py:71 | Succeeds exactly when the source is a directory and the destination is free. It then duplicates the source's subtree at the destination and leaves the source as it was. A missing source raises the lookup error. On failure nothing changes. Outside the destination, only missing ancestors appear, and they are directories. |
| Shutil.ShutilMove | src/sphinxnotes/incrbuild/utils.py:79 | Moves a directory into an existing directory under its own name, and raises shutil.Error when that entry exists, even if the source is missing. It refuses to move a directory into itself. A successful move puts the whole subtree at the target and leaves the source vacant. Outside source and destination, only new ancestor directories appear. |
| Shutil.ShutilMoveFrame | src/sphinxnotes/incrbuild/utils.py:79 | shutil.move touches only the source and the entry it creates. Moving into an existing directory leaves that directory's other entries as they were; outside that entry, only new ancestor directories appear. |
| Shutil.Relocate | src/sphinxnotes/incrbuild/utils.py:79 | The rename branch of shutil.move, with its copytree and copy2 fallbacks, for a destination that is not a directory. A missing source raises the lookup error. Moving a directory into itself raises shutil.Error. Otherwise a directory moves exactly when the destination is free and no file lies above it; it arrives whole and leaves the source vacant. Failures change nothing. Outside source and destination, only new ancestor directories appear. |
| Utils.Copy | src/sphinxnotes/incrbuild/utils.py:68-73 | Raises exactly when copytree raises something other than FileNotFoundError. A missing source changes nothing. Copying to a free path duplicates the tree. Outside the destination, only new ancestor directories appear. |
| Utils.MoveFrame | src/sphinxnotes/incrbuild/utils.py:76-81 | A move touches only the source and the entry it creates. Moving into an existing directory leaves that directory's other entries as they were. |
| Utils.Move | src/sphinxnotes/incrbuild/utils.py:76-81 | Raises exactly when shutil.move raises something other than FileNotFoundError. A missing source changes nothing. A directory moved to a free path arrives whole, as does one moved into an existing directory under its own name. Outside source and destination, only new ancestor directories appear. |
| Cache.DirLayout | src/sphinxnotes/incrbuild/__main__.py:44-50 | Make mode uses outdir/html and outdir/doctrees. Plain mode uses outdir and outdir/.doctrees. An explicit doctree directory wins in both modes. Without it, make mode keeps the two directories apart, while plain mode nests the doctrees inside the html directory. |
| Cache.RestoreCache | src/sphinxnotes/incrbuild/__main__.py:188-199 | As written. A cache directory that does not exist makes the restore a no-op. |
| Cache.RestoreEffect | src/sphinxnotes/incrbuild/__main__.py:194-199 | When the three directories are separate, the restore as written succeeds. The html and doctree directories then hold exactly what cache/html and cache/doctrees held, and both cache entries are gone. A missing cache entry leaves its target missing. Nothing else changes except directories created above the targets. |
| Cache.RestoreCacheFixed | src/sphinxnotes/incrbuild/__main__.py:188-199 | The corrected restore, which Cli.MainFixed uses. It clears each target just before moving its cache entry there. A cache directory that does not exist makes it a no-op. |
| Cache.FixedRestoreEffect | src/sphinxnotes/incrbuild/__main__.py:194-199 | When the three directories are separate, the corrected restore has the same effect that RestoreEffect states for the restore as written. |
| Cache.FixedRestoreAgrees | src/sphinxnotes/incrbuild/__main__.py:188-199 | On a separated layout whose targets' parents exist, the corrected restore and the restore as written leave the same filesystem. |
| Cache.SaveEffect | src/sphinxnotes/incrbuild/__main__.py:202-212 | When neither output directory touches the cache directory and the cache's parent exists, the save succeeds. Afterwards the cache directory holds exactly cache/html, a copy of the html directory, and cache/doctrees, the moved doctree directory. The doctree directory is vacant. A separate html directory is untouched. Nothing outside the doctree directory and the cache changes. |
| Cache.SavedIsRestorable | src/sphinxnotes/incrbuild/__main__.py:188-212 | What a save leaves behind for a separated layout never blocks the restore: no file stands in the way of the targets or the cache entries. |
| Cache.SaveRestoreRoundTrip | src/sphinxnotes/incrbuild/__main__.py:188-212 | For a separated layout, a save followed by the restore as written gives back exactly the html and doctree directories that were saved. |
| Cache.FixedSaveRestoreRoundTrip | src/sphinxnotes/incrbuild/__main__.py:188-212 | The same round trip holds with the corrected restore. |
| DoctreeNesting.NestedSave | src/sphinxnotes/incrbuild/__main__.py:202-212 | In the plain layout, the save stores the doctree directory twice: as cache/doctrees and inside cache/html. |
| DoctreeNesting.NestedRestore | src/sphinxnotes/incrbuild/__main__.py:188-199 | In the plain layout, the restore as written moves cache/html back as the html directory, so the cached doctree copy comes back inside it. It then moves cache/doctrees into that copy as a `doctrees` entry. If that entry already exists, it raises shutil.Error. When it succeeds, the html directory equals cache/html everywhere except at that entry, and the entry holds exactly what cache/doctrees held. |
| DoctreeNesting.NestedCacheBreaks | src/sphinxnotes/incrbuild/__main__.py:188-212 | In the plain layout with the code as written, save, restore and save succeed, but the first restore nests the doctrees one level too deep. The restore after the second save raises shutil.Error. |
| DoctreeNesting.FixedNestedRoundTrip | src/sphinxnotes/incrbuild/__main__.py:188-212 | In the plain layout, a save followed by the corrected restore gives back exactly the html directory, doctrees included, and the doctree directory that were saved. |
| Theme.HtmlSuffix | src/sphinxnotes/incrbuild/__main__.py:149 | A name has suffix `.html` exactly when it ends in `.html` with at least one character before the dot. So `.html` alone, `x.HTML` and `x.html.bak` are not templates. |
| Theme.HtmlOf | src/sphinxnotes/incrbuild/__main__.py:148-151 | Of one distribution's recorded files, exactly those with suffix `.html` are selected. |
| Theme.HtmlFiles | src/sphinxnotes/incrbuild/__main__.py:146-151 | Succeeds exactly when every named distribution is installed, and raises PackageNotFoundError otherwise. A path is selected exactly when one of the distributions records it and its suffix is `.html`. |
| Theme.ThemeDepsIgnoreRequirements | src/sphinxnotes/incrbuild/__main__.py:141-145 | As written, the distributions searched are exactly the theme and Sphinx, whatever the theme requires. |
| Theme.ThemeDepsFixedSelects | src/sphinxnotes/incrbuild/__main__.py:141-145 | The corrected loop searches a distribution exactly when it is the theme, Sphinx, or an unconditional requirement of the theme. |
| Theme.FixedThemeAgrees | src/sphinxnotes/incrbuild/__main__.py:141-145 | When every requirement of the theme carries a marker, the corrected step and the step as written have the same outcome. |
| Theme.StampFiles | src/sphinxnotes/incrbuild/__main__.py:153-166 | The stamping loop completes exactly when every listed file exists and may be written. Otherwise it ends with a PermissionError on a listed existing file, or with the lookup error of a listed missing one. It never adds or removes a path, and it touches only listed paths, keeping their content. |
| Theme.StampFilesStops | src/sphinxnotes/incrbuild/__main__.py:153-166 | A stamping loop that stops reports the first entry, in list order, that is missing or may not be written. Every entry before it exists and was writable. The filesystem is exactly the reference stamp of those earlier entries, so the reported entry and everything after it keep their mtime. |
| Theme.StampFilesEffect | src/sphinxnotes/incrbuild/__main__.py:153-166 | A completed stamping loop matches the reference effect: every listed file gets the sentinel mtime, and every other path stays as it was. |
| Theme.StampFilesWellFormed | src/sphinxnotes/incrbuild/__main__.py:153-166 | Stamping keeps the filesystem well formed. |
| Theme.StampAllIdempotent | src/sphinxnotes/incrbuild/__main__.py:153-166 | Applying the reference stamping effect twice is applying it once. |
| Theme.StampFilesIdempotent | src/sphinxnotes/incrbuild/__main__.py:153-166 | Running the completed stamping loop again over the same files changes nothing. |
| Theme.RestoreThemeIdempotent | src/sphinxnotes/incrbuild/__main__.py:124-166 | Once the theme step as written has stamped, running it again on the result changes nothing. |
| Theme.StampThemeEffect | src/sphinxnotes/incrbuild/__main__.py:146-166 | Suppose the named distributions are installed and their templates exist. If every template may be written, exactly those templates get the sentinel mtime and nothing else changes. Otherwise the step stops with a PermissionError on a template. |
| Theme.StampThemeMissing | src/sphinxnotes/incrbuild/__main__.py:148 | A named distribution that is not installed raises PackageNotFoundError before any file is touched. |
| Theme.ThemeEffect | src/sphinxnotes/incrbuild/__main__.py:124-166 | When the theme and Sphinx are installed and their templates exist, the step as written stamps exactly the templates of the theme and of Sphinx, or stops with a PermissionError on one of them. |
| Theme.ThemeMissing | src/sphinxnotes/incrbuild/__main__.py:142 | A theme that is not an installed distribution, such as one built into Sphinx, raises PackageNotFoundError and touches nothing. So does a missing Sphinx distribution. |
| Cli.Incrbuild | src/sphinxnotes/incrbuild/__main__.py:29-68 | The command in either variant. Another builder returns the build's own code on the untouched filesystem. For html, a returned code means preparation reached the build, and the code is the one the build returned on the prepared filesystem. |
| Cli.Main | src/sphinxnotes/incrbuild/__main__.py:29-68 | main as written, with `restore_cache` and `restore_theme_files_mtime` exactly as the source has them. A returned code is the build's own, as stated for Cli.Incrbuild. |
| Cli.MainFixed | src/sphinxnotes/incrbuild/__main__.py:29-68 | main with the corrected restore and requirements loop. A returned code is the build's own, as stated for Cli.Incrbuild. |
| Cli.Prepare | src/sphinxnotes/incrbuild/__main__.py:44-58 | The steps run in the source's order. An exception out of the restore stops the run there, with the restore's filesystem. A preparation that does not reach the build ends with sys.exit or an escaping exception, never with a returned code. Reaching the build means the restore finished, the theme step stamped, the source is in git and git-restore-mtime exited 0. The build then receives git-restore-mtime's result on the stamped state. |
| Cli.Finish | src/sphinxnotes/incrbuild/__main__.py:63-64 | After a successful build, main returns 0 exactly when save_cache succeeds, crashes with the save's exception otherwise, and leaves the filesystem the save left. |
| Cli.NonHtmlPassesThrough | src/sphinxnotes/incrbuild/__main__.py:39-42 | In both variants, any builder but html runs the build on the untouched filesystem and returns its code with the build's filesystem. No cache, theme or git step runs. |
| Cli.SaveOnlyOnSuccess | src/sphinxnotes/incrbuild/__main__.py:60-68 | In both variants, once preparation succeeds the build runs on the prepared filesystem. A nonzero code is returned with the build's filesystem and nothing saved. A zero code hands the build's result to save_cache. |
| Cli.NoCacheNoRestore | src/sphinxnotes/incrbuild/__main__.py:191-193 | In both variants, without a cache directory the restore is a no-op and the theme step starts from the filesystem main was given. |
| Cli.GitFailureStopsEarly | src/sphinxnotes/incrbuild/__main__.py:169-185 | In both variants, once the restore and theme steps succeed, a source tree outside git crashes with the CalledProcessError, and a nonzero exit from git-restore-mtime ends the process with that code after its effect. In both cases the build never runs. |
| Cli.ThemeDeniedExits | src/sphinxnotes/incrbuild/__main__.py:164-166 | In both variants, a template whose mtime may not be set ends the process with exit code -1, before git or the build runs, leaving the templates stamped so far. Theme.StampFilesStops states which templates those are. |
| Cli.RestoreFailureCrashes | src/sphinxnotes/incrbuild/__main__.py:52 | In both variants, an exception out of restore_cache ends main right there, with the restore's filesystem. |
| Cli.ThemeFailureCrashes | src/sphinxnotes/incrbuild/__main__.py:55 | In both variants, an exception out of the theme step (PackageNotFoundError, or the lookup error of a missing template) ends main before git or the build runs, with the theme step's filesystem. |
| Cli.MainCrashesOnNestedCache | src/sphinxnotes/incrbuild/__main__.py:52 | When the doctree directory lies directly inside the html directory and the cache already holds the nested doctree entry that a second save leaves, main as written crashes with shutil.Error. |
| Cli.FixedMainAgrees | src/sphinxnotes/incrbuild/__main__.py:52-55 | The corrected command and main as written have the same outcome when both of the following hold. First, the cache is absent, or the layout is separated with nothing in the way and the targets' parents existing. Second, the theme is not installed or all its requirements are optional. |

`Cli.Main` is the command as written. `Cli.MainFixed` runs the same pipeline
with `Cache.RestoreCacheFixed` and `Theme.RestoreThemeFilesMtimeFixed`. The
two differ only where the findings below say:

- `Cache.FixedRestoreAgrees` shows that both restores agree on a separated
  layout when the cache directory exists, no regular file stands in the way
  of the targets or the cache entries, and the targets' parents exist.
- `Theme.FixedThemeAgrees` shows that both theme steps agree for a theme
  without unconditional requirements.
- `Cli.FixedMainAgrees` combines the two for the whole command.

## Left out

- The command line (`_parse_args`, argparse, the `--cache` default). The
  parsed, resolved arguments are an input. That includes the
  `outdir.mkdir(exist_ok=True)` that `_parse_args` performs.
- The theme name is an input. `main` obtains it from
  `sphinxapi.get_html_theme`, which `sphinxapi.py` does not define (it
  defines `get_html_theme_dir`). `sphinxapi.py`, `sphinx.py`, `__init__.py`
  and `meta.py` are not part of this model.
- Sphinx itself (`sphinxapi.run`, called for both the html and the other
  builders) is an oracle from filesystem to exit code and filesystem.
  `sphinxapi.py` does not define `run` either; it defines only
  `get_html_theme_dir` and `get_build_parser`.
- `git rev-parse` is reduced to whether the source directory is in a work
  tree. `git-restore-mtime` is reduced to its exit code and an arbitrary
  filesystem change. The subprocess plumbing and the relaying of stderr are
  not modelled.
- `importlib.metadata`: installed distributions are an input map from name
  to requirements and located files. Name normalisation
  (`sphinx_book_theme` vs `sphinx-book-theme`) and requirement strings that
  fail to parse are not modelled.
- The sentinel mtime is a parameter. `datetime(1900, 1, 1).timestamp()`
  depends on the local time zone (it is -2208988800 in UTC). The access
  time set from `time.time()` is not modelled, and neither are directory
  mtimes.
- Permissions are reduced to a set of files whose mtime may not be set.
  Symbolic links are not modelled.
- Logging (`info`, `warn`, `error`) and `get_pypi_package_release_time` are
  left out.
- No directory the tool touches is the filesystem root.
- `Cli.Main` and `Cache.SaveCache` require that the cache directory not lie
  inside the html directory or coincide with it. When it coincides, the save
  wipes the html output before copying it. When it lies strictly inside,
  `copytree` keeps descending into its own output. Each level costs two
  Python frames, so with short names the descent stops at the interpreter's
  recursion limit and RecursionError escapes the save. With long names it
  stops at the path-length limit first, and the OSError is collected into
  shutil.Error. Either way the save raises.
- `Shutil.CopyTree` and `Utils.Copy` require that the destination not lie
  strictly inside the source. Depending on the shape, `copytree` then
  either copies a snapshot that leaves out its own output or keeps
  descending. The descent ends in RecursionError at the interpreter's
  recursion limit, or in shutil.Error when the path-length limit comes
  first.
- The DoctreeNesting lemmas cover a doctree directory that is a direct
  child of the html directory (the plain-mode default). An explicit `-d`
  deeper inside the html directory, such as `outdir/a/doctrees`, nests in
  the same way but is not covered by any lemma.
- `Cli.Main`: `sys.exit(-1)` and the helper's exit code are reported as
  given. The operating system's reduction of an exit status modulo 256 is
  not modelled.
- A theme template that cannot be stamped ends the run: the code calls
  `sys.exit(-1)` on a `PermissionError`. A recorded template that does not
  exist makes `os.stat` raise, and that exception escapes.
- `get_pypi_package_release_time` is never called. Templates always get
  the 1900-01-01 sentinel.
- Cache.RestoreEffect, Cache.SaveEffect and Cache.SaveRestoreRoundTrip
  require the separated layout and free paths. The nested layout is
  covered by the DoctreeNesting lemmas. States where a regular file blocks
  a target are covered only by the error cases of the shutil members.

## Findings

| source | as written | input that shows it | evidently intended | confidence | as-written member | corrected member |
|---|---|---|---|---|---|---|
| src/sphinxnotes/incrbuild/__main__.py:188-199 | restore_cache removes the html and doctree directories first, then moves cache/html and cache/doctrees back. In the plain layout the doctree directory `outdir/.doctrees` lies inside `outdir`, so save_cache already stored a copy of it inside cache/html. The first move brings that copy back, and shutil.move then puts cache/doctrees inside it as `outdir/.doctrees/doctrees`. | A plain-mode (`sphinx-build -b html`) build whose doctree directory exists and has no `doctrees` entry, with a separate cache directory. Save, restore and save succeed, and the next restore raises shutil.Error ("destination path already exists"). | The doctree directory is restored in place on every run. | not executed | DoctreeNesting.NestedCacheBreaks (on Cache.RestoreCache) | Cache.RestoreCacheFixed, with DoctreeNesting.FixedNestedRoundTrip and Cache.FixedSaveRestoreRoundTrip |
| src/sphinxnotes/incrbuild/__main__.py:141-145 | The loop over the theme's requirements parses each one and skips those with markers, but never appends a name to `deps`. Only the theme's and Sphinx's templates are stamped. | A theme that requires another theme unconditionally, such as sphinx_book_theme, which requires pydata-sphinx-theme: the templates of pydata-sphinx-theme keep their install-time mtime. | Each unconditional requirement's name is appended to `deps`, as the comment about sphinx_book_theme says. | not executed | Theme.ThemeDepsIgnoreRequirements (on Theme.ThemeDeps) | Theme.ThemeDepsFixedSelects (on Theme.ThemeDepsFixed) |

=== FILE: cache.dfy ===
/** The cache lifecycle of the command-line entry point: where the HTML and
    doctree directories live, restoring them from the cache directory
    before a build, and saving them into it after a successful one. */
module Cache {
  import opened FileSystem
  import opened Shutil
  import opened Utils

  /** The HTML output directory and the doctree directory of one build. */
  datatype Layout = Layout(html: Path, doctrees: Path)

  /** The layout main derives from the Sphinx arguments: make mode (-M)
      builds into outdir/html and keeps doctrees in outdir/doctrees; plain
      mode builds into outdir itself and keeps doctrees in outdir/.doctrees;
      an explicit doctree directory (-d) wins in both modes. */
  function DirLayout(outdir: Path, doctreedir: Option<Path>, makeMode: bool): (l: Layout)
    ensures makeMode ==> l.html == outdir + ["html"]
    ensures !makeMode ==> l.html == outdir
    ensures doctreedir.Some? ==> l.doctrees == doctreedir.value
    ensures doctreedir.None? ==> l.doctrees == outdir + [if makeMode then "doctrees" else ".doctrees"]
    // without -d, make mode keeps the two directories apart, while plain
    // mode puts the doctree directory directly inside the html directory
    ensures doctreedir.None? && makeMode ==> Apart(l.html, l.doctrees)
    ensures doctreedir.None? && !makeMode ==> Nested(l)
  {
    assert Apart(outdir + ["html"], outdir + ["doctrees"]) by {
      SiblingsApart(outdir, "html", "doctrees");
    }
    var html := if makeMode then outdir + ["html"] else outdir;
    var doctrees := match doctreedir
      case Some(d) => d
      case None => outdir + [if makeMode then "doctrees" else ".doctrees"];
    Layout(html, doctrees)
  }

  /** The doctree directory is an entry of the html directory. */
  predicate Nested(l: Layout) {
    |l.doctrees| > 0 && Parent(l.doctrees) == l.html
  }

  lemma NestedShape(l: Layout)
    requires Nested(l)
    ensures l.doctrees == l.html + [Basename(l.doctrees)]
    ensures l.html < l.doctrees
  {
  }

  /** The two entries of the cache directory. */
  function CachedHtml(cache: Path): Path { cache + ["html"] }
  function CachedDoctrees(cache: Path): Path { cache + ["doctrees"] }

  /** Neither the html nor the doctree directory contains, lies inside or
      coincides with the cache directory. */
  predicate OutsideCache(cache: Path, l: Layout) {
    Apart(l.html, cache) && Apart(l.doctrees, cache)
  }

  /** The html directory, the doctree directory and the cache directory
      pairwise neither contain nor coincide with one another. */
  predicate Separated(cache: Path, l: Layout) {
    Apart(l.html, l.doctrees) && OutsideCache(cache, l)
  }

  /** restore_cache: a no-op when the cache directory does not exist;
      otherwise clears both target directories and moves cache/html and
      cache/doctrees into them. */
  function RestoreCache(fs: FS, cache: Path, l: Layout): (r: Outcome)
    requires |cache| > 0 && |l.html| > 0 && |l.doctrees| > 0
    ensures cache !in fs ==> r == Done(fs)
  {
    if cache !in fs then Done(fs)
    else
      var cleared := RmTree(RmTree(fs, l.html), l.doctrees);
      match Move(cleared, CachedHtml(cache), l.html)
      case Raised(e, fs') => Raised(e, fs')
      case Done(fs') => Move(fs', CachedDoctrees(cache), l.doctrees)
  }

  /** restore_cache with each target cleared just before its own move, so
      that a doctree directory kept inside the html directory is replaced
      rather than nested into the copy that arrives with cache/html. */
  function RestoreCacheFixed(fs: FS, cache: Path, l: Layout): (r: Outcome)
    requires |cache| > 0 && |l.html| > 0 && |l.doctrees| > 0
    ensures cache !in fs ==> r == Done(fs)
  {
    if cache !in fs then Done(fs)
    else
      match Move(RmTree(fs, l.html), CachedHtml(cache), l.html)
      case Raised(e, fs') => Raised(e, fs')
      case Done(fs') => Move(RmTree(fs', l.doctrees), CachedDoctrees(cache), l.doctrees)
  }

  /** save_cache: recreates the cache directory empty, copies the html
      directory into cache/html and moves the doctree directory to
      cache/doctrees. The cache directory may not lie inside the html
      directory, where copytree would copy into its own source. */
  function SaveCache(fs: FS, cache: Path, l: Layout): (r: Outcome)
    requires |cache| > 0 && |l.html| > 0 && |l.doctrees| > 0 && !(l.html <= cache)
  {
    assert !(l.html < CachedHtml(cache)) by {
      if l.html < CachedHtml(cache) {
        PrefixOrder(l.html, cache, CachedHtml(cache));
      }
    }
    match Mkdir(RmTree(fs, cache), cache)
    case Raised(e, fs1) => Raised(e, fs1)
    case Done(fs1) =>
      match Copy(fs1, l.html, CachedHtml(cache))
      case Raised(e, fs2) => Raised(e, fs2)
      case Done(fs2) => Move(fs2, l.doctrees, CachedDoctrees(cache))
  }

  // -----------------------------------------------------------------------
  // Effects of restore and save

  /** Moving an existing-or-absent directory onto a vacant place: the tree
      arrives whole (or nothing happens when the source is absent), the
      source is left vacant, and nothing else changes. */
  lemma MoveIntoVacancy(fs: FS, src: Path, dst: Path)
    requires WellFormed(fs) && Apart(src, dst)
    requires DirSlot(fs, src) && Vacant(fs, dst) && !FileAncestor(fs, dst)
    ensures var r := Move(fs, src, dst);
      && r.Done? && WellFormed(r.fs)
      && Subtree(r.fs, dst) == Subtree(fs, src)
      && Vacant(r.fs, src)
      && Framed(fs, r.fs, src, dst)
  {
    assert dst !in fs;
    if src !in fs {
      AbsentIsVacant(fs, src);
      VacantSubtree(fs, src);
      VacantSubtree(fs, dst);
    }
  }

  /** The state restore_cache's two moves start from: both targets vacant
      and reachable, both cache entries directories or absent. */
  predicate ReadyToMoveBack(fs: FS, cache: Path, l: Layout) {
    && WellFormed(fs) && IsDir(fs, cache) && Separated(cache, l)
    && Vacant(fs, l.html) && Vacant(fs, l.doctrees)
    && !FileAncestor(fs, l.html) && !FileAncestor(fs, l.doctrees)
    && DirSlot(fs, CachedHtml(cache)) && DirSlot(fs, CachedDoctrees(cache))
  }

  lemma CacheEntriesApart(cache: Path, l: Layout)
    requires OutsideCache(cache, l)
    ensures Apart(l.html, CachedHtml(cache)) && Apart(l.doctrees, CachedHtml(cache))
    ensures Apart(l.html, CachedDoctrees(cache)) && Apart(l.doctrees, CachedDoctrees(cache))
    ensures Apart(CachedHtml(cache), CachedDoctrees(cache))
  {
    ApartChild(l.html, cache, "html");
    ApartChild(l.doctrees, cache, "html");
    ApartChild(l.html, cache, "doctrees");
    ApartChild(l.doctrees, cache, "doctrees");
    SiblingsApart(cache, "html", "doctrees");
  }

  /** restore_cache's clearing step leaves both targets vacant and the
      cache entries untouched. */
  lemma RestoreClears(fs: FS, cache: Path, l: Layout)
    requires WellFormed(fs) && IsDir(fs, cache) && Separated(cache, l)
    requires DirSlot(fs, l.html) && DirSlot(fs, l.doctrees)
    requires DirSlot(fs, CachedHtml(cache)) && DirSlot(fs, CachedDoctrees(cache))
    ensures |l.html| > 0 && |l.doctrees| > 0
    ensures var fs1 := RmTree(RmTree(fs, l.html), l.doctrees);
      && ReadyToMoveBack(fs1, cache, l)
      && Subtree(fs1, CachedHtml(cache)) == Subtree(fs, CachedHtml(cache))
      && Subtree(fs1, CachedDoctrees(cache)) == Subtree(fs, CachedDoctrees(cache))
      && Framed(fs, fs1, l.html, l.doctrees)
  {
    var h, d, ch, cd := l.html, l.doctrees, CachedHtml(cache), CachedDoctrees(cache);
    CacheEntriesApart(cache, l);
    var fs0 := RmTree(fs, h);
    if h !in fs {
      AbsentIsVacant(fs, h);
    }
    var fs1 := RmTree(fs0, d);
    if d !in fs0 {
      AbsentIsVacant(fs0, d);
    }
    assert Vacant(fs1, h) && Vacant(fs1, d);
    ApartBelow(ch, h);
    ApartBelow(ch, d);
    ApartBelow(cd, h);
    ApartBelow(cd, d);
    SubtreeFrame(fs, fs1, ch);
    SubtreeFrame(fs, fs1, cd);
    assert Framed(fs, fs1, h, d);
    NoFileAncestorKept(fs, fs1, h, d, h);
    NoFileAncestorKept(fs, fs1, h, d, d);
    assert ch + [] == ch && cd + [] == cd;
    ParentDirClear(fs1, ch);
    ParentDirClear(fs1, cd);
  }

  /** restore_cache's two moves, from a cleared state. */
  lemma RestoreMovesBack(fs1: FS, cache: Path, l: Layout)
    requires ReadyToMoveBack(fs1, cache, l)
    ensures |l.html| > 0 && |l.doctrees| > 0
    ensures var m := Move(fs1, CachedHtml(cache), l.html);
      && m.Done?
      && var r := Move(m.fs, CachedDoctrees(cache), l.doctrees);
      && r.Done? && WellFormed(r.fs)
      && Subtree(r.fs, l.html) == Subtree(fs1, CachedHtml(cache))
      && Subtree(r.fs, l.doctrees) == Subtree(fs1, CachedDoctrees(cache))
      && Vacant(r.fs, CachedHtml(cache)) && Vacant(r.fs, CachedDoctrees(cache))
      && (forall q | q in fs1 && !(l.html <= q) && !(l.doctrees <= q)
            && !(CachedHtml(cache) <= q) && !(CachedDoctrees(cache) <= q) :: q in r.fs && r.fs[q] == fs1[q])
      && (forall q | q in r.fs && q !in fs1 :: l.html <= q || q < l.html || l.doctrees <= q || q < l.doctrees)
  {
    var h, d, ch, cd := l.html, l.doctrees, CachedHtml(cache), CachedDoctrees(cache);
    CacheEntriesApart(cache, l);
    MoveIntoVacancy(fs1, ch, h);
    var fs2 := Move(fs1, ch, h).fs;
    VacantKept(fs1, fs2, ch, h, d);
    NoFileAncestorKept(fs1, fs2, ch, h, d);
    FramedSubtree(fs1, fs2, ch, h, cd);
    assert cd + [] == cd;
    ParentDirClear(fs2, cd);
    MoveIntoVacancy(fs2, cd, d);
    var fs3 := Move(fs2, cd, d).fs;
    FramedSubtree(fs2, fs3, cd, d, h);
    VacantKept(fs2, fs3, cd, d, ch);
  }

  /** r is what restoring the cache into the layout should leave behind:
      the html and doctree directories hold exactly what cache/html and
      cache/doctrees held, both cache entries are gone, every other existing
      path is untouched, and the only new paths lie at or below the two
      targets or on the way to them. */
  predicate RestoredFrom(fs: FS, r: FS, cache: Path, l: Layout) {
    var h, d, ch, cd := l.html, l.doctrees, CachedHtml(cache), CachedDoctrees(cache);
    && Subtree(r, h) == Subtree(fs, ch)
    && Subtree(r, d) == Subtree(fs, cd)
    && Vacant(r, ch) && Vacant(r, cd)
    && (forall q | q in fs && !(h <= q) && !(d <= q) && !(ch <= q) && !(cd <= q) :: q in r && r[q] == fs[q])
    && (forall q | q in r && q !in fs :: h <= q || q < h || d <= q || q < d)
  }

  /** What restore_cache leaves behind, provided the cache directory exists,
      the three directories are pairwise separate and no regular file
      stands in the way: the restored state described above (so a missing
      cache entry leaves its target missing too). */
  lemma RestoreEffect(fs: FS, cache: Path, l: Layout)
    requires WellFormed(fs) && IsDir(fs, cache) && Separated(cache, l)
    requires DirSlot(fs, l.html) && DirSlot(fs, l.doctrees)
    requires DirSlot(fs, CachedHtml(cache)) && DirSlot(fs, CachedDoctrees(cache))
    ensures |cache| > 0 && |l.html| > 0 && |l.doctrees| > 0
    ensures var r := RestoreCache(fs, cache, l);
      && r.Done? && WellFormed(r.fs)
      && RestoredFrom(fs, r.fs, cache, l)
      && (CachedHtml(cache) !in fs ==> l.html !in r.fs)
      && (CachedDoctrees(cache) !in fs ==> l.doctrees !in r.fs)
  {
    var h, d, ch, cd := l.html, l.doctrees, CachedHtml(cache), CachedDoctrees(cache);
    RestoreClears(fs, cache, l);
    var fs1 := RmTree(RmTree(fs, h), d);
    RestoreMovesBack(fs1, cache, l);
    var fs3 := Move(Move(fs1, ch, h).fs, cd, d).fs;
    assert RestoreCache(fs, cache, l) == Done(fs3);
    if ch !in fs {
      assert ch + [] == ch && h + [] == h;
    }
    if cd !in fs {
      assert cd + [] == cd && d + [] == d;
    }
  }

  /** A save can start: the layout is separated, the cache directory's
      parent exists, and no regular file stands where a directory goes. */
  predicate ReadyToSave(fs: FS, cache: Path, l: Layout) {
    && WellFormed(fs) && OutsideCache(cache, l) && |cache| > 0
    && IsDir(fs, Parent(cache)) && DirSlot(fs, cache)
    && DirSlot(fs, l.html) && DirSlot(fs, l.doctrees)
  }

  /** The state after save_cache recreated the cache directory: it exists and
      is empty, and the html and doctree directories are still in place. */
  predicate FreshCache(fs: FS, cache: Path, l: Layout) {
    && WellFormed(fs) && OutsideCache(cache, l)
    && IsDir(fs, cache) && (forall q | q in fs :: !(cache < q))
    && DirSlot(fs, l.html) && DirSlot(fs, l.doctrees)
  }

  /** In a well-formed filesystem, the only new entries a change framed by a
      child of an existing directory can create lie below that child. */
  lemma FramedBelowChild(fs: FS, fs': FS, a: Path, c: Path, n: Name)
    requires WellFormed(fs) && c in fs && Framed(fs, fs', a, c + [n])
    ensures forall q | q in fs' && q !in fs :: c + [n] <= q
  {
    forall q | q in fs' && q !in fs ensures c + [n] <= q {
      if q < c + [n] {
        assert q <= c by {
          assert q == c[..|q|];
        }
        PrefixExists(fs, q, c);
      }
    }
  }

  /** save_cache's first step: rmtree then mkdir leaves an empty cache
      directory and changes nothing else. */
  lemma SaveClearsCache(fs: FS, cache: Path, l: Layout)
    requires ReadyToSave(fs, cache, l)
    ensures var m := Mkdir(RmTree(fs, cache), cache);
      && m.Done? && FreshCache(m.fs, cache, l)
      && Framed(fs, m.fs, cache, cache)
      && Subtree(m.fs, l.html) == Subtree(fs, l.html)
      && Subtree(m.fs, l.doctrees) == Subtree(fs, l.doctrees)
  {
    var fs0 := RmTree(fs, cache);
    if cache !in fs {
      AbsentIsVacant(fs, cache);
    }
    assert Vacant(fs0, cache);
    assert !(cache <= Parent(cache));
    ParentDirClear(fs0, cache);
    var fs1 := fs0[cache := Dir];
    assert Mkdir(fs0, cache) == Done(fs1);
    assert Framed(fs, fs1, cache, cache);
    FramedSubtree(fs, fs1, cache, cache, l.html);
    FramedSubtree(fs, fs1, cache, cache, l.doctrees);
    NoFileAncestorKept(fs, fs1, cache, cache, l.html);
    NoFileAncestorKept(fs, fs1, cache, cache, l.doctrees);
  }

  /** save_cache's copy of the html directory into the fresh cache. */
  lemma SaveCopiesHtml(fs1: FS, cache: Path, l: Layout)
    requires FreshCache(fs1, cache, l)
    ensures !(l.html < CachedHtml(cache))
    ensures var c := Copy(fs1, l.html, CachedHtml(cache));
      && c.Done? && WellFormed(c.fs) && IsDir(c.fs, cache)
      && Subtree(c.fs, CachedHtml(cache)) == Subtree(fs1, l.html)
      && Subtree(c.fs, l.html) == Subtree(fs1, l.html)
      && Subtree(c.fs, l.doctrees) == Subtree(fs1, l.doctrees)
      && Framed(fs1, c.fs, CachedHtml(cache), CachedHtml(cache))
      && (forall q | q in c.fs && q !in fs1 :: CachedHtml(cache) <= q)
      && Vacant(c.fs, CachedDoctrees(cache))
      && DirSlot(c.fs, l.doctrees)
  {
    var ch, cd := CachedHtml(cache), CachedDoctrees(cache);
    CacheEntriesApart(cache, l);
    assert cache < ch && cache < cd;
    assert ch !in fs1;
    ParentDirClear(fs1, ch);
    if l.html !in fs1 {
      AbsentIsVacant(fs1, l.html);
      VacantSubtree(fs1, l.html);
      assert Vacant(fs1, ch) by {
        forall q | q in fs1 && ch <= q ensures false {
          PrefixTrans(cache, ch, q);
        }
      }
      VacantSubtree(fs1, ch);
    }
    var fs2 := Copy(fs1, l.html, ch).fs;
    FramedSubtree(fs1, fs2, ch, ch, l.doctrees);
    FramedBelowChild(fs1, fs2, ch, cache, "html");
    assert Vacant(fs1, cd) by {
      forall q | q in fs1 && cd <= q ensures false {
        PrefixTrans(cache, cd, q);
      }
    }
    VacantKept(fs1, fs2, ch, ch, cd);
    NoFileAncestorKept(fs1, fs2, ch, ch, l.doctrees);
  }

  /** save_cache's move of the doctree directory into the cache. */
  lemma SaveMovesDoctrees(fs2: FS, cache: Path, l: Layout)
    requires WellFormed(fs2) && OutsideCache(cache, l) && IsDir(fs2, cache)
    requires Vacant(fs2, CachedDoctrees(cache)) && DirSlot(fs2, l.doctrees)
    ensures var m := Move(fs2, l.doctrees, CachedDoctrees(cache));
      && m.Done? && WellFormed(m.fs) && IsDir(m.fs, cache)
      && Subtree(m.fs, CachedDoctrees(cache)) == Subtree(fs2, l.doctrees)
      && Subtree(m.fs, CachedHtml(cache)) == Subtree(fs2, CachedHtml(cache))
      && (Apart(l.html, l.doctrees) ==> Subtree(m.fs, l.html) == Subtree(fs2, l.html))
      && Vacant(m.fs, l.doctrees)
      && Framed(fs2, m.fs, l.doctrees, CachedDoctrees(cache))
      && (forall q | q in m.fs && q !in fs2 :: CachedDoctrees(cache) <= q)
  {
    var ch, cd := CachedHtml(cache), CachedDoctrees(cache);
    CacheEntriesApart(cache, l);
    ParentDirClear(fs2, cd);
    MoveIntoVacancy(fs2, l.doctrees, cd);
    var fs3 := Move(fs2, l.doctrees, cd).fs;
    FramedSubtree(fs2, fs3, l.doctrees, cd, ch);
    if Apart(l.html, l.doctrees) {
      FramedSubtree(fs2, fs3, l.doctrees, cd, l.html);
    }
    FramedBelowChild(fs2, fs3, l.doctrees, cache, "doctrees");
    assert !(l.doctrees <= cache) && !(cd <= cache);
  }

  /** s is what saving the layout into the cache should leave behind: the
      cache directory holds exactly a copy of the html directory as
      cache/html and the former doctree directory as cache/doctrees; the
      doctree directory is gone, the html directory is otherwise untouched,
      and nothing outside the doctree and cache directories changes. */
  predicate SavedFrom(fs: FS, s: FS, cache: Path, l: Layout) {
    && IsDir(s, cache)
    && Subtree(s, CachedHtml(cache)) == Subtree(fs, l.html)
    && Subtree(s, CachedDoctrees(cache)) == Subtree(fs, l.doctrees)
    && (Apart(l.html, l.doctrees) ==> Subtree(s, l.html) == Subtree(fs, l.html))
    && Vacant(s, l.doctrees)
    && (forall q | q in s && cache < q :: CachedHtml(cache) <= q || CachedDoctrees(cache) <= q)
    && Framed(fs, s, l.doctrees, cache)
  }

  /** What save_cache leaves behind when neither output directory touches
      the cache directory and nothing is in the way: the cache directory
      holds the saved state described above. */
  lemma SaveEffect(fs: FS, cache: Path, l: Layout)
    requires ReadyToSave(fs, cache, l)
    ensures |l.html| > 0 && |l.doctrees| > 0 && !(l.html <= cache)
    ensures var r := SaveCache(fs, cache, l);
      && r.Done? && WellFormed(r.fs) && SavedFrom(fs, r.fs, cache, l)
  {
    var ch, cd := CachedHtml(cache), CachedDoctrees(cache);
    SaveClearsCache(fs, cache, l);
    var fs1 := Mkdir(RmTree(fs, cache), cache).fs;
    SaveCopiesHtml(fs1, cache, l);
    var fs2 := Copy(fs1, l.html, ch).fs;
    SaveMovesDoctrees(fs2, cache, l);
    var fs3 := Move(fs2, l.doctrees, cd).fs;
    assert SaveCache(fs, cache, l) == Done(fs3);
    forall q | q in fs3 && cache < q ensures ch <= q || cd <= q {
    }
    forall q | q in fs && !(l.doctrees <= q) && !(cache <= q) ensures q in fs3 && fs3[q] == fs[q] {
      if ch <= q {
        PrefixTrans(cache, ch, q);
      }
      if cd <= q {
        PrefixTrans(cache, cd, q);
      }
    }
    forall q | q in fs3 && q !in fs ensures cache <= q {
      if q !in fs2 {
        PrefixTrans(cache, cd, q);
      } else if q !in fs1 {
        PrefixTrans(cache, ch, q);
      } else {
        assert !(l.doctrees <= q) by {
          assert Vacant(fs3, l.doctrees);
        }
        assert !(cd <= q);
        assert !(ch <= q);
      }
    }
  }

  /** A state save_cache left behind for a separated layout is one
      restore_cache can work from without obstruction. */
  lemma SavedIsRestorable(fs: FS, s: FS, cache: Path, l: Layout)
    requires ReadyToSave(fs, cache, l) && Separated(cache, l)
    requires WellFormed(s) && SavedFrom(fs, s, cache, l)
    ensures DirSlot(s, l.html) && DirSlot(s, l.doctrees)
    ensures DirSlot(s, CachedHtml(cache)) && DirSlot(s, CachedDoctrees(cache))
  {
    var ch, cd := CachedHtml(cache), CachedDoctrees(cache);
    CacheEntriesApart(cache, l);
    SubtreeRoot(s, ch, fs, l.html);
    SubtreeRoot(s, cd, fs, l.doctrees);
    SubtreeRoot(s, l.html, fs, l.html);
    ParentDirClear(s, ch);
    ParentDirClear(s, cd);
    NoFileAncestorKept(fs, s, l.doctrees, cache, l.html);
    NoFileAncestorKept(fs, s, l.doctrees, cache, l.doctrees);
  }

  /** Saving and then restoring with the same separated layout gives back
      exactly the html and doctree directories that were saved. */
  lemma SaveRestoreRoundTrip(fs: FS, cache: Path, l: Layout)
    requires ReadyToSave(fs, cache, l) && Separated(cache, l)
    ensures |l.html| > 0 && |l.doctrees| > 0 && !(l.html <= cache)
    ensures var s := SaveCache(fs, cache, l);
      && s.Done?
      && var r := RestoreCache(s.fs, cache, l);
      && r.Done? && WellFormed(r.fs)
      && Subtree(r.fs, l.html) == Subtree(fs, l.html)
      && Subtree(r.fs, l.doctrees) == Subtree(fs, l.doctrees)
  {
    SaveEffect(fs, cache, l);
    SavedIsRestorable(fs, SaveCache(fs, cache, l).fs, cache, l);
    RestoreEffect(SaveCache(fs, cache, l).fs, cache, l);
  }

  /** The same round trip with the corrected restore. */
  lemma FixedSaveRestoreRoundTrip(fs: FS, cache: Path, l: Layout)
    requires ReadyToSave(fs, cache, l) && Separated(cache, l)
    ensures |l.html| > 0 && |l.doctrees| > 0 && !(l.html <= cache)
    ensures var s := SaveCache(fs, cache, l);
      && s.Done?
      && var r := RestoreCacheFixed(s.fs, cache, l);
      && r.Done? && WellFormed(r.fs)
      && Subtree(r.fs, l.html) == Subtree(fs, l.html)
      && Subtree(r.fs, l.doctrees) == Subtree(fs, l.doctrees)
  {
    SaveEffect(fs, cache, l);
    SavedIsRestorable(fs, SaveCache(fs, cache, l).fs, cache, l);
    FixedRestoreEffect(SaveCache(fs, cache, l).fs, cache, l);
  }

  // -----------------------------------------------------------------------
  // The corrected restore

  /** Clearing a place and moving a directory (or nothing) there: the tree
      arrives whole, the source is left vacant, and nothing else changes. */
  lemma ClearAndMove(fs: FS, src: Path, dst: Path)
    requires WellFormed(fs) && |src| > 0 && |dst| > 0 && Apart(src, dst)
    requires DirSlot(fs, src) && DirSlot(fs, dst)
    ensures var r := Move(RmTree(fs, dst), src, dst);
      && r.Done? && WellFormed(r.fs)
      && Subtree(r.fs, dst) == Subtree(fs, src)
      && Vacant(r.fs, src)
      && Framed(fs, r.fs, src, dst)
  {
    var fs0 := RmTree(fs, dst);
    if dst !in fs {
      AbsentIsVacant(fs, dst);
    }
    assert Framed(fs, fs0, dst, dst);
    NoFileAncestorKept(fs, fs0, dst, dst, dst);
    NoFileAncestorKept(fs, fs0, dst, dst, src);
    FramedSubtree(fs, fs0, dst, dst, src);
    MoveIntoVacancy(fs0, src, dst);
  }

  /** The corrected restore's first step on a separated layout leaves the
      doctree side as it found it. */
  lemma FixedFirstStep(fs: FS, cache: Path, l: Layout)
    requires WellFormed(fs) && Separated(cache, l)
    requires DirSlot(fs, l.html) && DirSlot(fs, l.doctrees)
    requires DirSlot(fs, CachedHtml(cache)) && DirSlot(fs, CachedDoctrees(cache))
    ensures |l.html| > 0 && |l.doctrees| > 0
    ensures var m := Move(RmTree(fs, l.html), CachedHtml(cache), l.html);
      && m.Done? && WellFormed(m.fs)
      && Subtree(m.fs, l.html) == Subtree(fs, CachedHtml(cache))
      && Vacant(m.fs, CachedHtml(cache))
      && Framed(fs, m.fs, CachedHtml(cache), l.html)
      && DirSlot(m.fs, l.doctrees) && DirSlot(m.fs, CachedDoctrees(cache))
      && Subtree(m.fs, CachedDoctrees(cache)) == Subtree(fs, CachedDoctrees(cache))
  {
    var h, d, ch, cd := l.html, l.doctrees, CachedHtml(cache), CachedDoctrees(cache);
    CacheEntriesApart(cache, l);
    ClearAndMove(fs, ch, h);
    var fsB := Move(RmTree(fs, h), ch, h).fs;
    NoFileAncestorKept(fs, fsB, ch, h, cd);
    NoFileAncestorKept(fs, fsB, ch, h, d);
    FramedSubtree(fs, fsB, ch, h, cd);
  }

  /** The corrected restore has restore_cache's intended effect on a
      separated layout. */
  lemma FixedRestoreEffect(fs: FS, cache: Path, l: Layout)
    requires WellFormed(fs) && IsDir(fs, cache) && Separated(cache, l)
    requires DirSlot(fs, l.html) && DirSlot(fs, l.doctrees)
    requires DirSlot(fs, CachedHtml(cache)) && DirSlot(fs, CachedDoctrees(cache))
    ensures |cache| > 0 && |l.html| > 0 && |l.doctrees| > 0
    ensures var r := RestoreCacheFixed(fs, cache, l);
      && r.Done? && WellFormed(r.fs)
      && RestoredFrom(fs, r.fs, cache, l)
  {
    var h, d, ch, cd := l.html, l.doctrees, CachedHtml(cache), CachedDoctrees(cache);
    CacheEntriesApart(cache, l);
    FixedFirstStep(fs, cache, l);
    var fsB := Move(RmTree(fs, h), ch, h).fs;
    ClearAndMove(fsB, cd, d);
    var fsD := Move(RmTree(fsB, d), cd, d).fs;
    assert RestoreCacheFixed(fs, cache, l) == Done(fsD);
    FramedSubtree(fsB, fsD, cd, d, h);
    VacantKept(fsB, fsD, cd, d, ch);
    FramedCompose(fs, fsB, fsD, ch, h, cd, d);
  }

  /** Two restored states agree at one path when the parents of both
      targets exist. */
  lemma RestoredAgreeAt(fs: FS, r1: FS, r2: FS, cache: Path, l: Layout, q: Path)
    requires WellFormed(fs) && Separated(cache, l)
    requires |l.html| > 0 && |l.doctrees| > 0
    requires IsDir(fs, Parent(l.html)) && IsDir(fs, Parent(l.doctrees))
    requires RestoredFrom(fs, r1, cache, l) && RestoredFrom(fs, r2, cache, l)
    ensures SameAt(r1, r2, q)
  {
    var h, d, ch, cd := l.html, l.doctrees, CachedHtml(cache), CachedDoctrees(cache);
    if h <= q {
      SameBelow(r1, r2, h, q);
    } else if d <= q {
      SameBelow(r1, r2, d, q);
    } else if ch <= q || cd <= q {
    } else {
      if q < h {
        BelowParent(q, h);
        PrefixExists(fs, q, Parent(h));
      }
      if q < d {
        BelowParent(q, d);
        PrefixExists(fs, q, Parent(d));
      }
    }
  }

  /** When the parents of both targets exist, the restored state is
      determined by the state before. */
  lemma RestoredUnique(fs: FS, r1: FS, r2: FS, cache: Path, l: Layout)
    requires WellFormed(fs) && Separated(cache, l)
    requires |l.html| > 0 && |l.doctrees| > 0
    requires IsDir(fs, Parent(l.html)) && IsDir(fs, Parent(l.doctrees))
    requires RestoredFrom(fs, r1, cache, l) && RestoredFrom(fs, r2, cache, l)
    ensures r1 == r2
  {
    forall q ensures SameAt(r1, r2, q) {
      RestoredAgreeAt(fs, r1, r2, cache, l, q);
    }
    SameEverywhere(r1, r2);
  }

  /** On a separated layout whose targets' parents exist the correction
      changes nothing: both restores leave the same state. */
  lemma FixedRestoreAgrees(fs: FS, cache: Path, l: Layout)
    requires WellFormed(fs) && IsDir(fs, cache) && Separated(cache, l)
    requires DirSlot(fs, l.html) && DirSlot(fs, l.doctrees)
    requires DirSlot(fs, CachedHtml(cache)) && DirSlot(fs, CachedDoctrees(cache))
    requires |l.html| > 0 && |l.doctrees| > 0
    requires IsDir(fs, Parent(l.html)) && IsDir(fs, Parent(l.doctrees))
    ensures RestoreCacheFixed(fs, cache, l) == RestoreCache(fs, cache, l)
  {
    RestoreEffect(fs, cache, l);
    FixedRestoreEffect(fs, cache, l);
    RestoredUnique(fs, RestoreCacheFixed(fs, cache, l).fs, RestoreCache(fs, cache, l).fs, cache, l);
  }
}

=== FILE: filesystem.dfy ===
/** An abstract hierarchical filesystem: a finite map from absolute paths
    (sequences of names) to nodes. A well-formed filesystem has a root
    directory and every other entry sits inside an existing directory.
    Directory mtimes, permissions and symbolic links are not modelled. */
module FileSystem {

  type Name = string
  type Path = seq<Name>
  type Time = int

  datatype Node = File(content: seq<bv8>, mtime: Time) | Dir

  /** Absolute path -> node. */
  type FS = map<Path, Node>

  /** A detached tree: relative path -> node, the tree's own root at []. */
  type Tree = map<Path, Node>

  /** The Python exceptions the modelled operations can raise. */
  datatype Error =
    | FileNotFound        // FileNotFoundError (ENOENT)
    | NotADirectory       // NotADirectoryError (ENOTDIR)
    | FileExists          // FileExistsError (EEXIST)
    | DestinationExists   // shutil.Error: "Destination path ... already exists"
    | MoveIntoItself      // shutil.Error: "Cannot move a directory ... into itself"
    | PackageNotFound     // importlib.metadata.PackageNotFoundError
    | GitRootNotFound     // subprocess.CalledProcessError from `git rev-parse`

  /** Result of a filesystem operation: the state it left behind, and the
      exception it raised, if any. */
  datatype Outcome = Done(fs: FS) | Raised(err: Error, fs: FS)

  datatype Option<T> = None | Some(value: T)

  function Parent(p: Path): Path
    requires |p| > 0
  {
    p[..|p| - 1]
  }

  function Basename(p: Path): Name
    requires |p| > 0
  {
    p[|p| - 1]
  }

  predicate WellFormed(fs: FS) {
    && [] in fs && fs[[]].Dir?
    && forall p | p in fs && p != [] :: Parent(p) in fs && fs[Parent(p)].Dir?
  }

  predicate IsDir(fs: FS, p: Path) {
    p in fs && fs[p].Dir?
  }

  /** Nothing exists at or below p. */
  predicate Vacant(fs: FS, p: Path) {
    forall q | q in fs :: !(p <= q)
  }

  /** Some proper prefix of p is a regular file, so p cannot be reached. */
  predicate FileAncestor(fs: FS, p: Path) {
    exists i | 0 <= i < |p| :: p[..i] in fs && fs[p[..i]].File?
  }

  /** The exception a lookup of a missing path raises. */
  function LookupError(fs: FS, p: Path): (e: Error)
    ensures e == FileNotFound || e == NotADirectory
    ensures e == NotADirectory <==> FileAncestor(fs, p)
  {
    if FileAncestor(fs, p) then NotADirectory else FileNotFound
  }

  /** Neither path lies at or below the other. */
  predicate Apart(p: Path, q: Path) {
    !(p <= q) && !(q <= p)
  }

  /** Two filesystems agree on path q. */
  predicate SameAt(fs: FS, fs': FS, q: Path) {
    (q in fs <==> q in fs') && (q in fs ==> fs[q] == fs'[q])
  }

  /** The tree rooted at p, with paths relative to p. */
  function Subtree(fs: FS, p: Path): (t: Tree)
    ensures forall r :: r in t <==> p + r in fs
    ensures forall r | r in t :: t[r] == fs[p + r]
  {
    var rel := set q | q in fs && p <= q :: q[|p|..];
    assert forall r | p + r in fs :: r in rel by {
      forall r | p + r in fs ensures r in rel {
        assert (p + r)[|p|..] == r;
      }
    }
    map r | r in rel && p + r in fs :: fs[p + r]
  }

  /** The filesystem with p and everything below it removed. */
  function Prune(fs: FS, p: Path): (r: FS)
    ensures forall q :: q in r <==> q in fs && !(p <= q)
    ensures forall q | q in r :: r[q] == fs[q]
    ensures Vacant(r, p)
  {
    map q | q in fs && !(p <= q) :: fs[q]
  }

  /** The filesystem with tree t placed at p (overriding what t covers). */
  function Graft(fs: FS, p: Path, t: Tree): (r: FS)
    ensures forall q :: q in r <==> q in fs || (p <= q && q[|p|..] in t)
    ensures forall q | q in r :: r[q] == if p <= q && q[|p|..] in t then t[q[|p|..]] else fs[q]
  {
    var placed := set r' | r' in t :: p + r';
    assert forall q | p <= q && q[|p|..] in t :: q in placed by {
      forall q | p <= q && q[|p|..] in t ensures q in placed {
        assert q == p + q[|p|..];
      }
    }
    assert forall q | q in placed :: p <= q && q[|p|..] in t by {
      forall q | q in placed ensures p <= q && q[|p|..] in t {
        var r' :| r' in t && q == p + r';
        assert q[|p|..] == r';
      }
    }
    map q | q in fs.Keys + placed ::
      if p <= q && q[|p|..] in t then t[q[|p|..]] else fs[q]
  }

  /** The directories os.makedirs creates on the way to p: every missing
      proper prefix of p. */
  function MkAncestors(fs: FS, p: Path): (r: FS)
    ensures forall q :: q in r <==> q in fs || q < p
    ensures forall q | q in fs :: r[q] == fs[q]
    ensures forall q | q in r && q !in fs :: r[q] == Dir
  {
    var prefixes := set i | 0 <= i < |p| :: p[..i];
    assert forall q | q < p :: q in prefixes by {
      forall q | q < p ensures q in prefixes {
        assert q == p[..|q|];
      }
    }
    fs + map a | a in prefixes && a !in fs :: Dir
  }

  // ---------------------------------------------------------------------
  // Algebra of the tree operations

  /** Subtrees are equal when the two filesystems agree pointwise below
      their roots. */
  lemma SubtreeExt(fs: FS, p: Path, fs': FS, p': Path)
    requires forall r :: (p' + r in fs' <==> p + r in fs)
    requires forall r | p + r in fs :: p' + r in fs' && fs'[p' + r] == fs[p + r]
    ensures Subtree(fs', p') == Subtree(fs, p)
  {
  }

  /** Subtrees agree when the filesystems agree everywhere below the root. */
  lemma SubtreeFrame(fs: FS, fs': FS, p: Path)
    requires forall r :: SameAt(fs, fs', p + r)
    ensures Subtree(fs', p) == Subtree(fs, p)
  {
    SubtreeExt(fs, p, fs', p);
  }

  /** A tree grafted onto a vacant place is the subtree found there. */
  lemma SubtreeOfGraft(fs: FS, p: Path, t: Tree)
    requires Vacant(fs, p)
    ensures Subtree(Graft(fs, p, t), p) == t
  {
    var fs' := Graft(fs, p, t);
    forall r ensures p + r in fs' <==> r in t {
      assert (p + r)[|p|..] == r;
    }
  }

  /** In a well-formed filesystem every proper prefix of an existing path
      is an existing directory. */
  lemma {:induction false} AncestorsExist(fs: FS, q: Path)
    requires WellFormed(fs) && q in fs
    ensures forall i | 0 <= i < |q| :: q[..i] in fs && fs[q[..i]].Dir?
    ensures !FileAncestor(fs, q)
  {
    if q != [] {
      AncestorsExist(fs, Parent(q));
      forall i | 0 <= i < |q| ensures q[..i] in fs && fs[q[..i]].Dir? {
        if i < |q| - 1 {
          assert q[..i] == Parent(q)[..i];
        }
      }
    }
  }

  lemma PrefixExists(fs: FS, p: Path, q: Path)
    requires WellFormed(fs) && q in fs && p <= q
    ensures p in fs
  {
    AncestorsExist(fs, q);
    if p != q {
      assert p == q[..|p|];
    }
  }

  lemma AncestorIsDir(fs: FS, p: Path, q: Path)
    requires WellFormed(fs) && q in fs && p < q
    ensures IsDir(fs, p)
  {
    AncestorsExist(fs, q);
    assert p == q[..|p|];
  }

  /** In a well-formed filesystem nothing lies below a missing path. */
  lemma AbsentIsVacant(fs: FS, p: Path)
    requires WellFormed(fs) && p !in fs
    ensures Vacant(fs, p)
  {
    forall q | q in fs && p <= q ensures false {
      PrefixExists(fs, p, q);
    }
  }

  /** The subtree of a directory is itself a well-formed tree. */
  lemma SubtreeWellFormed(fs: FS, p: Path)
    requires WellFormed(fs) && IsDir(fs, p)
    ensures WellFormed(Subtree(fs, p))
  {
    var t := Subtree(fs, p);
    assert p + [] == p;
    forall r | r in t && r != [] ensures Parent(r) in t && t[Parent(r)].Dir? {
      assert Parent(p + r) == p + Parent(r);
    }
  }

  /** Creating the missing ancestors of a path that lies below no file keeps
      the filesystem well formed and makes every ancestor a directory. */
  lemma MkAncestorsWellFormed(fs: FS, p: Path)
    requires WellFormed(fs) && !FileAncestor(fs, p)
    ensures WellFormed(MkAncestors(fs, p))
    ensures forall a | a < p :: IsDir(MkAncestors(fs, p), a)
  {
    var mk := MkAncestors(fs, p);
    forall a | a < p ensures IsDir(mk, a) {
      assert a == p[..|a|];
    }
    forall q | q in mk && q != [] ensures Parent(q) in mk && mk[Parent(q)].Dir? {
      if q !in fs {
        assert q < p;
        assert Parent(q) == p[..|q| - 1];
        assert Parent(q) < p;
        assert IsDir(mk, Parent(q));
      } else {
        assert Parent(q) in fs && fs[Parent(q)].Dir?;
      }
    }
  }

  /** Grafting a well-formed tree onto a vacant path whose parent is a
      directory keeps the filesystem well formed. */
  lemma GraftWellFormed(fs: FS, p: Path, t: Tree)
    requires WellFormed(fs) && WellFormed(t)
    requires |p| > 0 && Vacant(fs, p) && IsDir(fs, Parent(p))
    ensures WellFormed(Graft(fs, p, t))
  {
    var fs' := Graft(fs, p, t);
    forall q | q in fs' && q != [] ensures Parent(q) in fs' && fs'[Parent(q)].Dir? {
      if p <= q && q[|p|..] in t {
        var r := q[|p|..];
        assert q == p + r;
        if r != [] {
          assert Parent(q) == p + Parent(r);
          assert Parent(q)[|p|..] == Parent(r);
        } else {
          assert Parent(q) == Parent(p);
          assert !(p <= Parent(p));
        }
      } else {
        assert q in fs && !(p <= q);
        assert !(p <= Parent(q));
      }
    }
  }

  /** In a well-formed filesystem a regular file has nothing below it. */
  lemma FileIsLeaf(fs: FS, p: Path)
    requires WellFormed(fs) && p in fs && fs[p].File?
    ensures forall q | q in fs && p <= q :: q == p
  {
    forall q | q in fs && p <= q ensures q == p {
      if q != p {
        AncestorIsDir(fs, p, q);
      }
    }
  }

  /** Two prefixes of the same path are ordered by length. */
  lemma PrefixOrder(a: Path, b: Path, c: Path)
    requires a <= c && b <= c && |a| <= |b|
    ensures a <= b
  {
    assert a == c[..|a|] && b == c[..|b|];
    assert a == b[..|a|];
  }

  /** Nothing below a missing path dst lies below an existing path src that
      is not itself above dst. */
  lemma NothingBelowSourceAt(fs: FS, src: Path, dst: Path)
    requires WellFormed(fs) && src in fs && dst !in fs && !(src <= dst)
    ensures forall r :: !(src <= dst + r)
  {
    forall r ensures !(src <= dst + r) {
      if src <= dst + r {
        if |src| <= |dst| {
          PrefixOrder(src, dst, dst + r);
        } else {
          PrefixOrder(dst, src, dst + r);
          PrefixExists(fs, dst, src);
        }
      }
    }
  }

  /** Removing a tree other than the root keeps the filesystem well formed. */
  lemma PruneWellFormed(fs: FS, p: Path)
    requires WellFormed(fs) && p != []
    ensures WellFormed(Prune(fs, p))
  {
  }

  lemma PrefixEqual(a: Path, b: Path)
    requires a <= b && |b| <= |a|
    ensures a == b
  {
    assert a == b[..|a|];
  }

  /** A directory may be created or moved to p: nothing above p is a file,
      and p itself is absent or a directory. */
  predicate DirSlot(fs: FS, p: Path) {
    !FileAncestor(fs, p) && (p in fs ==> fs[p].Dir?)
  }

  /** fs' differs from fs only at or below a and b, plus directories created
      on the way to b. */
  predicate Framed(fs: FS, fs': FS, a: Path, b: Path) {
    && (forall q | q in fs && !(a <= q) && !(b <= q) :: q in fs' && fs'[q] == fs[q])
    && (forall q | q in fs' && q !in fs :: b <= q || (q < b && fs'[q] == Dir))
  }

  /** Paths below one of two apart paths never reach the other. */
  lemma ApartBelow(a: Path, b: Path)
    requires Apart(a, b)
    ensures forall r :: !(b <= a + r) && !(a + r < b)
  {
    forall r ensures !(b <= a + r) && !(a + r < b) {
      if b <= a + r {
        if |b| <= |a| {
          PrefixOrder(b, a, a + r);
        } else {
          PrefixOrder(a, b, a + r);
        }
      }
    }
  }

  /** A subtree apart from both framing paths is unchanged. */
  lemma FramedSubtree(fs: FS, fs': FS, a: Path, b: Path, p: Path)
    requires Framed(fs, fs', a, b) && Apart(p, a) && Apart(p, b)
    ensures Subtree(fs', p) == Subtree(fs, p)
  {
    ApartBelow(p, a);
    ApartBelow(p, b);
    forall r ensures SameAt(fs, fs', p + r) {
      assert !(a <= p + r) && !(b <= p + r) && !(p + r < b);
    }
    SubtreeFrame(fs, fs', p);
  }

  /** Below an existing directory of a well-formed filesystem no file
      blocks the way. */
  lemma ParentDirClear(fs: FS, p: Path)
    requires WellFormed(fs) && |p| > 0 && IsDir(fs, Parent(p))
    ensures !FileAncestor(fs, p)
  {
    AncestorsExist(fs, Parent(p));
    forall i | 0 <= i < |p| ensures !(p[..i] in fs && fs[p[..i]].File?) {
      if i < |p| - 1 {
        assert p[..i] == Parent(p)[..i];
      } else {
        assert p[..i] == Parent(p);
      }
    }
  }

  lemma ApartChild(a: Path, c: Path, n: Name)
    requires Apart(a, c)
    ensures Apart(a, c + [n])
  {
    if a <= c + [n] && a != c + [n] {
      PrefixOrder(a, c, c + [n]);
    }
  }

  /** A framed change keeps the way to p free of files when it touches
      nothing strictly above p. */
  lemma NoFileAncestorKept(fs: FS, fs': FS, a: Path, b: Path, p: Path)
    requires Framed(fs, fs', a, b) && !FileAncestor(fs, p)
    requires !(a < p) && !(b < p)
    ensures !FileAncestor(fs', p)
  {
    forall i | 0 <= i < |p| ensures !(p[..i] in fs' && fs'[p[..i]].File?) {
      assert p[..i] < p;
    }
  }

  /** A framed change keeps p vacant when p is apart from the paths it
      creates things under. */
  lemma VacantKept(fs: FS, fs': FS, a: Path, b: Path, p: Path)
    requires Framed(fs, fs', a, b) && Vacant(fs, p) && Apart(p, b)
    ensures Vacant(fs', p)
  {
    forall q | q in fs' && p <= q ensures false {
      if b <= q {
        if |b| <= |p| {
          PrefixOrder(b, p, q);
        } else {
          PrefixOrder(p, b, q);
        }
      }
    }
  }

  /** An empty subtree is the empty tree. */
  lemma VacantSubtree(fs: FS, p: Path)
    requires Vacant(fs, p)
    ensures Subtree(fs, p) == map[]
  {
    assert forall r :: p + r !in fs by {
      forall r ensures p + r !in fs {
        assert p <= p + r;
      }
    }
  }

  lemma SiblingsApart(c: Path, n: Name, m: Name)
    requires n != m
    ensures Apart(c + [n], c + [m])
  {
    var a, b := c + [n], c + [m];
    assert |a| == |b| && a[|c|] == n && b[|c|] == m;
    assert a[|c|] != b[|c|];
  }

  /** A proper prefix of p is a prefix of p's parent. */
  lemma BelowParent(q: Path, p: Path)
    requires q < p
    ensures q <= Parent(p)
  {
    assert q == p[..|q|];
    assert Parent(p)[..|q|] == p[..|q|];
  }

  /** Two framed changes in a row are framed by all four paths. */
  lemma FramedCompose(fs: FS, f1: FS, f2: FS, a1: Path, b1: Path, a2: Path, b2: Path)
    requires Framed(fs, f1, a1, b1) && Framed(f1, f2, a2, b2)
    ensures forall q | q in fs && !(a1 <= q) && !(b1 <= q) && !(a2 <= q) && !(b2 <= q) :: q in f2 && f2[q] == fs[q]
    ensures forall q | q in f2 && q !in fs :: b1 <= q || q < b1 || b2 <= q || q < b2
  {
  }

  /** Filesystems with equal subtrees at p agree everywhere below p. */
  lemma SameBelow(fs: FS, fs': FS, p: Path, q: Path)
    requires Subtree(fs, p) == Subtree(fs', p) && p <= q
    ensures SameAt(fs, fs', q)
  {
    var r := q[|p|..];
    assert q == p + r;
    assert r in Subtree(fs, p) <==> q in fs;
    assert r in Subtree(fs', p) <==> q in fs';
  }

  /** Filesystems that agree at every path are equal. */
  lemma SameEverywhere(fs: FS, fs': FS)
    requires forall q :: SameAt(fs, fs', q)
    ensures fs == fs'
  {
    forall q | q in fs ensures q in fs' && fs'[q] == fs[q] {
      assert SameAt(fs, fs', q);
    }
    forall q | q in fs' ensures q in fs {
      assert SameAt(fs, fs', q);
    }
    assert fs.Keys == fs'.Keys;
  }

  /** Nothing blocks the way to a child of a directory slot. */
  lemma DirSlotChild(fs: FS, p: Path, n: Name)
    requires DirSlot(fs, p)
    ensures !FileAncestor(fs, p + [n])
  {
    var c := p + [n];
    forall i | 0 <= i < |c| ensures !(c[..i] in fs && fs[c[..i]].File?) {
      if i < |p| {
        assert c[..i] == p[..i];
      } else {
        assert c[..i] == p;
      }
    }
  }

  /** Equal subtrees at p have equal subtrees below p. */
  lemma SubtreeBelow(fs: FS, fs': FS, p: Path, q: Path)
    requires Subtree(fs, p) == Subtree(fs', p) && p <= q
    ensures Subtree(fs, q) == Subtree(fs', q)
  {
    forall r ensures SameAt(fs, fs', q + r) {
      PrefixTrans(p, q, q + r);
      SameBelow(fs, fs', p, q + r);
    }
    SubtreeFrame(fs, fs', q);
  }

  lemma PrefixTrans(a: Path, b: Path, c: Path)
    requires a <= b && b <= c
    ensures a <= c
  {
    assert a == c[..|a|];
  }

  /** An existing directory of a well-formed filesystem is a directory slot. */
  lemma DirIsDirSlot(fs: FS, p: Path)
    requires WellFormed(fs) && IsDir(fs, p)
    ensures DirSlot(fs, p)
  {
    AncestorsExist(fs, p);
  }

  /** Equal subtrees at p and p' hold the same entries at the same relative
      paths. */
  lemma SubtreeEntry(fs: FS, p: Path, fs': FS, p': Path, r: Path)
    requires Subtree(fs, p) == Subtree(fs', p')
    ensures p + r in fs <==> p' + r in fs'
    ensures p + r in fs ==> fs[p + r] == fs'[p' + r]
  {
    assert r in Subtree(fs, p) <==> p + r in fs;
    assert r in Subtree(fs', p') <==> p' + r in fs';
  }

  /** Equal subtrees at p and p' have the same node at their roots. */
  lemma SubtreeRoot(fs: FS, p: Path, fs': FS, p': Path)
    requires Subtree(fs, p) == Subtree(fs', p')
    ensures p in fs <==> p' in fs'
    ensures p in fs ==> fs[p] == fs'[p']
  {
    SubtreeEntry(fs, p, fs', p', []);
    assert p + [] == p && p' + [] == p';
  }
}

=== FILE: main.dfy ===
/** main: the incremental build wrapped around one sphinx-build run.
    For the html builder it restores the cached output, stamps the theme's
    templates with an old mtime, lets git-restore-mtime stamp the sources
    with their commit times, runs the build, and saves the output to the
    cache when the build succeeded. Everything outside the filesystem model
    (the theme name from conf.py, the git helper, Sphinx itself) is an
    oracle carried by Env.

    Main is the command as written. MainFixed is the same command with the
    corrected restore and the corrected requirements loop; both are one
    pipeline, Incrbuild, that differs only in the Variant it is given. */
module Cli {
  import opened FileSystem
  import opened Cache
  import opened Theme
  import DoctreeNesting

  /** The parsed command line, paths already resolved. */
  datatype Args = Args(
    builder: string,
    makeMode: bool,
    outdir: Path,
    doctreedir: Option<Path>,
    cache: Path)

  /** The git side: whether the source directory lies in a work tree
      (`git rev-parse --show-toplevel` succeeds), git-restore-mtime's exit
      code, and what it does to the filesystem. */
  datatype Git = Git(inRepo: bool, helperCode: int, restore: FS -> FS)

  /** Everything main consults besides the filesystem. */
  datatype Env = Env(
    theme: string,
    dists: Installed,
    denied: set<Path>,
    sentinel: Time,
    git: Git,
    build: FS -> (int, FS))

  /** How the process ends: main returns a code, sys.exit is called, or an
      exception escapes. */
  datatype Status = Returned(code: int) | Exited(code: int) | Crashed(err: Error)

  datatype Run = Run(status: Status, fs: FS)

  /** The state just before sphinx-build runs, or how the run ended early. */
  datatype Stage = Ready(fs: FS) | Stopped(run: Run)

  /** The code as written, or with both findings corrected. */
  datatype Variant = AsWritten | Corrected

  /** The arguments main can work with: no directory it touches is the
      filesystem root, and the cache does not lie inside the html output. */
  predicate ValidArgs(args: Args) {
    && |args.outdir| > 0 && |args.cache| > 0
    && (args.doctreedir.Some? ==> |args.doctreedir.value| > 0)
    && !(DirLayout(args.outdir, args.doctreedir, args.makeMode).html <= args.cache)
  }

  function LayoutOf(args: Args): (l: Layout)
    requires ValidArgs(args)
    ensures |l.html| > 0 && |l.doctrees| > 0 && !(l.html <= args.cache)
  {
    DirLayout(args.outdir, args.doctreedir, args.makeMode)
  }

  /** restore_cache, as written or corrected. */
  function RestoreStep(args: Args, fs: FS, v: Variant): Outcome
    requires ValidArgs(args)
  {
    match v
    case AsWritten => RestoreCache(fs, args.cache, LayoutOf(args))
    case Corrected => RestoreCacheFixed(fs, args.cache, LayoutOf(args))
  }

  /** restore_theme_files_mtime, as written or corrected. */
  function ThemeStep(env: Env, fs: FS, v: Variant): ThemeOutcome {
    match v
    case AsWritten => RestoreThemeFilesMtime(fs, env.theme, env.dists, env.denied, env.sentinel)
    case Corrected => RestoreThemeFilesMtimeFixed(fs, env.theme, env.dists, env.denied, env.sentinel)
  }

  /** Everything main does before the build, for the html builder: restore
      the cache, stamp the theme templates, find the git root, run
      git-restore-mtime. Each step that fails ends the run where it is. */
  function Prepare(args: Args, env: Env, fs: FS, v: Variant): (s: Stage)
    requires ValidArgs(args)
    ensures s.Stopped? ==> s.run.status.Crashed? || s.run.status.Exited?
    ensures RestoreStep(args, fs, v).Raised? ==>
      s == Stopped(Run(Crashed(RestoreStep(args, fs, v).err), RestoreStep(args, fs, v).fs))
    ensures s.Ready? ==> env.git.inRepo && env.git.helperCode == 0
    // the build only runs after the restore finished and the theme step
    // stamped, on git-restore-mtime's result of the stamped state
    ensures s.Ready? ==>
      && RestoreStep(args, fs, v).Done?
      && ThemeStep(env, RestoreStep(args, fs, v).fs, v).Stamped?
      && s.fs == env.git.restore(ThemeStep(env, RestoreStep(args, fs, v).fs, v).fs)
  {
    match RestoreStep(args, fs, v)
    case Raised(e, fs1) => Stopped(Run(Crashed(e), fs1))
    case Done(fs1) =>
      match ThemeStep(env, fs1, v)
      case Failed(e, fs2) => Stopped(Run(Crashed(e), fs2))
      case Denied(_, fs2) => Stopped(Run(Exited(-1), fs2))
      case Stamped(fs2) =>
        if !env.git.inRepo then Stopped(Run(Crashed(GitRootNotFound), fs2))
        else
          var fs3 := env.git.restore(fs2);
          if env.git.helperCode != 0 then Stopped(Run(Exited(env.git.helperCode), fs3))
          else Ready(fs3)
  }

  /** After a successful build: save_cache. main returns 0 exactly when the
      save succeeds, and leaves what the save left. */
  function Finish(args: Args, fs: FS): (r: Run)
    requires ValidArgs(args)
    ensures r.status == Returned(0) <==> SaveCache(fs, args.cache, LayoutOf(args)).Done?
    ensures !r.status.Returned? ==> r.status == Crashed(SaveCache(fs, args.cache, LayoutOf(args)).err)
    ensures r.fs == SaveCache(fs, args.cache, LayoutOf(args)).fs
  {
    match SaveCache(fs, args.cache, LayoutOf(args))
    case Done(fs') => Run(Returned(0), fs')
    case Raised(e, fs') => Run(Crashed(e), fs')
  }

  /** The whole command in the given variant. A returned code is always the
      build's own: on the untouched filesystem for another builder, on the
      prepared one for html. */
  function Incrbuild(args: Args, env: Env, fs: FS, v: Variant): (r: Run)
    requires ValidArgs(args)
    ensures args.builder != "html" ==> r.status == Returned(env.build(fs).0)
    ensures args.builder == "html" && r.status.Returned? ==>
      && Prepare(args, env, fs, v).Ready?
      && r.status.code == env.build(Prepare(args, env, fs, v).fs).0
  {
    if args.builder != "html" then
      var (code, fs') := env.build(fs);
      Run(Returned(code), fs')
    else
      match Prepare(args, env, fs, v)
      case Stopped(run) => run
      case Ready(fs3) =>
        var (code, fs4) := env.build(fs3);
        if code == 0 then Finish(args, fs4) else Run(Returned(code), fs4)
  }

  /** main(argv), as written. */
  function Main(args: Args, env: Env, fs: FS): (r: Run)
    requires ValidArgs(args)
    ensures args.builder != "html" ==> r.status == Returned(env.build(fs).0)
    ensures args.builder == "html" && r.status.Returned? ==>
      && Prepare(args, env, fs, AsWritten).Ready?
      && r.status.code == env.build(Prepare(args, env, fs, AsWritten).fs).0
  {
    Incrbuild(args, env, fs, AsWritten)
  }

  /** main(argv) with the corrected restore and requirements loop. */
  function MainFixed(args: Args, env: Env, fs: FS): (r: Run)
    requires ValidArgs(args)
    ensures args.builder != "html" ==> r.status == Returned(env.build(fs).0)
    ensures args.builder == "html" && r.status.Returned? ==>
      && Prepare(args, env, fs, Corrected).Ready?
      && r.status.code == env.build(Prepare(args, env, fs, Corrected).fs).0
  {
    Incrbuild(args, env, fs, Corrected)
  }

  // -----------------------------------------------------------------------
  // Properties of main, for the code as written and for the correction

  /** Any builder but html is handed to Sphinx untouched: no cache, theme or
      git step runs, and main returns what the build returns. */
  lemma NonHtmlPassesThrough(args: Args, env: Env, fs: FS, v: Variant)
    requires ValidArgs(args) && args.builder != "html"
    ensures Incrbuild(args, env, fs, v) == Run(Returned(env.build(fs).0), env.build(fs).1)
  {
  }

  /** Once the preparation succeeded, the build runs on the prepared state;
      the cache is saved exactly when the build returns 0, and otherwise
      main returns the build's code with the build's filesystem. */
  lemma SaveOnlyOnSuccess(args: Args, env: Env, fs: FS, v: Variant)
    requires ValidArgs(args) && args.builder == "html" && Prepare(args, env, fs, v).Ready?
    ensures var (code, built) := env.build(Prepare(args, env, fs, v).fs);
      && (code != 0 ==> Incrbuild(args, env, fs, v) == Run(Returned(code), built))
      && (code == 0 ==> Incrbuild(args, env, fs, v) == Finish(args, built))
  {
  }

  /** A cache directory that does not exist leaves the restore step without
      effect: the theme step sees the filesystem main started with. */
  lemma NoCacheNoRestore(args: Args, env: Env, fs: FS, v: Variant)
    requires ValidArgs(args) && args.builder == "html" && args.cache !in fs
    ensures RestoreStep(args, fs, v) == Done(fs)
    ensures Prepare(args, env, fs, v) ==
      match ThemeStep(env, fs, v)
      case Failed(e, fs2) => Stopped(Run(Crashed(e), fs2))
      case Denied(_, fs2) => Stopped(Run(Exited(-1), fs2))
      case Stamped(fs2) =>
        if !env.git.inRepo then Stopped(Run(Crashed(GitRootNotFound), fs2))
        else if env.git.helperCode != 0 then Stopped(Run(Exited(env.git.helperCode), env.git.restore(fs2)))
        else Ready(env.git.restore(fs2))
  {
  }

  /** A source tree outside git crashes with the CalledProcessError, and a
      failing git-restore-mtime ends the process with its exit code; in both
      cases the build never runs. */
  lemma GitFailureStopsEarly(args: Args, env: Env, fs: FS, v: Variant)
    requires ValidArgs(args) && args.builder == "html"
    requires RestoreStep(args, fs, v).Done?
    requires ThemeStep(env, RestoreStep(args, fs, v).fs, v).Stamped?
    ensures var stamped := ThemeStep(env, RestoreStep(args, fs, v).fs, v).fs;
      && (!env.git.inRepo ==> Incrbuild(args, env, fs, v) == Run(Crashed(GitRootNotFound), stamped))
      && (env.git.inRepo && env.git.helperCode != 0 ==>
            Incrbuild(args, env, fs, v) == Run(Exited(env.git.helperCode), env.git.restore(stamped)))
  {
  }

  /** A theme template whose mtime may not be set ends the process with
      exit code -1 before git or the build run. */
  lemma ThemeDeniedExits(args: Args, env: Env, fs: FS, v: Variant)
    requires ValidArgs(args) && args.builder == "html"
    requires RestoreStep(args, fs, v).Done?
    requires ThemeStep(env, RestoreStep(args, fs, v).fs, v).Denied?
    ensures Incrbuild(args, env, fs, v) == Run(Exited(-1), ThemeStep(env, RestoreStep(args, fs, v).fs, v).fs)
  {
  }

  /** A failing restore (an exception out of shutil) crashes main before
      anything else runs. */
  lemma RestoreFailureCrashes(args: Args, env: Env, fs: FS, v: Variant)
    requires ValidArgs(args) && args.builder == "html"
    requires RestoreStep(args, fs, v).Raised?
    ensures Incrbuild(args, env, fs, v) == Run(Crashed(RestoreStep(args, fs, v).err), RestoreStep(args, fs, v).fs)
  {
  }

  /** An exception out of the theme step (PackageNotFoundError, or the
      error os.stat raises on a missing template) crashes main before git or
      the build run. */
  lemma ThemeFailureCrashes(args: Args, env: Env, fs: FS, v: Variant)
    requires ValidArgs(args) && args.builder == "html"
    requires RestoreStep(args, fs, v).Done?
    requires ThemeStep(env, RestoreStep(args, fs, v).fs, v).Failed?
    ensures var t := ThemeStep(env, RestoreStep(args, fs, v).fs, v);
      Incrbuild(args, env, fs, v) == Run(Crashed(t.err), t.fs)
  {
  }

  /** When the doctree directory lies directly inside the html directory
      (the plain layout), main as written crashes with shutil.Error once the
      cache holds a doctree directory that was already nested (the state
      the second save leaves, see DoctreeNesting.NestedCacheBreaks). */
  lemma MainCrashesOnNestedCache(args: Args, env: Env, fs: FS)
    requires ValidArgs(args) && args.builder == "html"
    requires DoctreeNesting.CachedTwice(fs, args.cache, LayoutOf(args))
    requires CachedHtml(args.cache) + [Basename(LayoutOf(args).doctrees), "doctrees"] in fs
    ensures Main(args, env, fs).status == Crashed(DestinationExists)
  {
    DoctreeNesting.NestedRestore(fs, args.cache, LayoutOf(args));
  }

  /** The correction changes nothing where neither finding applies: a
      restore that is a no-op or runs on a separated layout with nothing in
      the way, and a theme whose requirements are all optional (or that is
      not installed at all). */
  lemma FixedMainAgrees(args: Args, env: Env, fs: FS)
    requires ValidArgs(args)
    requires args.cache !in fs || (
      var l := LayoutOf(args);
      && WellFormed(fs) && IsDir(fs, args.cache) && Separated(args.cache, l)
      && DirSlot(fs, l.html) && DirSlot(fs, l.doctrees)
      && DirSlot(fs, CachedHtml(args.cache)) && DirSlot(fs, CachedDoctrees(args.cache))
      && IsDir(fs, Parent(l.html)) && IsDir(fs, Parent(l.doctrees)))
    requires env.theme in env.dists ==> forall q | q in RequirementsOf(env.dists[env.theme]) :: q.hasMarker
    ensures MainFixed(args, env, fs) == Main(args, env, fs)
  {
    if args.cache in fs {
      FixedRestoreAgrees(fs, args.cache, LayoutOf(args));
    }
    assert RestoreStep(args, fs, Corrected) == RestoreStep(args, fs, AsWritten);
    forall fs1: FS ensures ThemeStep(env, fs1, Corrected) == ThemeStep(env, fs1, AsWritten) {
      if env.theme in env.dists {
        FixedThemeAgrees(fs1, env.theme, env.dists, env.denied, env.sentinel);
      }
    }
    assert Prepare(args, env, fs, Corrected) == Prepare(args, env, fs, AsWritten);
  }
}

=== FILE: nesting.dfy ===
/** The plain (non-make) layout keeps the doctree directory inside the html
    directory. save_cache then copies the doctrees a second time as part of
    cache/html, and restore_cache, which clears both targets before either
    move, finds the doctree directory already back in place when it moves
    cache/doctrees, so shutil.move puts it inside as a "doctrees" entry. The
    next save caches that nested entry and the restore after it fails with
    shutil.Error. The corrected restore clears each target just before its
    own move and round-trips in both layouts. */
module DoctreeNesting {
  import opened FileSystem
  import opened Shutil
  import opened Utils
  import opened Cache

  /** Where restore_cache's second move puts cache/doctrees when the
      doctree directory already exists. */
  function NestedTarget(l: Layout): Path {
    l.doctrees + ["doctrees"]
  }

  /** The state restore_cache starts from in the plain layout once a save
      has cached a copy of the doctree directory inside cache/html. */
  predicate CachedTwice(fs: FS, cache: Path, l: Layout) {
    && WellFormed(fs) && IsDir(fs, cache) && OutsideCache(cache, l) && Nested(l)
    && DirSlot(fs, l.html)
    && IsDir(fs, CachedHtml(cache)) && IsDir(fs, CachedDoctrees(cache))
    && IsDir(fs, CachedHtml(cache) + [Basename(l.doctrees)])
  }

  /** The state after restore_cache's clearing and first move in the plain
      layout: the html directory is back with the cached doctree copy in it. */
  function AfterFirstMove(fs: FS, cache: Path, l: Layout): (fs2: FS)
    requires |l.html| > 0 && |l.doctrees| > 0
  {
    Move(RmTree(RmTree(fs, l.html), l.doctrees), CachedHtml(cache), l.html).fs
  }

  /** restore_cache's clearing step in the plain layout: removing the html
      directory removes the doctree directory with it. */
  lemma NestedClear(fs: FS, cache: Path, l: Layout)
    requires CachedTwice(fs, cache, l)
    ensures |l.html| > 0 && |l.doctrees| > 0
    ensures var fs1 := RmTree(RmTree(fs, l.html), l.doctrees);
      && WellFormed(fs1) && Vacant(fs1, l.html) && !FileAncestor(fs1, l.html)
      && IsDir(fs1, cache) && IsDir(fs1, CachedHtml(cache)) && IsDir(fs1, CachedDoctrees(cache))
      && Subtree(fs1, CachedHtml(cache)) == Subtree(fs, CachedHtml(cache))
      && Subtree(fs1, CachedDoctrees(cache)) == Subtree(fs, CachedDoctrees(cache))
  {
    var h, d, ch, cd := l.html, l.doctrees, CachedHtml(cache), CachedDoctrees(cache);
    CacheEntriesApart(cache, l);
    var fs0 := RmTree(fs, h);
    if h !in fs {
      AbsentIsVacant(fs, h);
    }
    assert d !in fs0;
    assert RmTree(fs0, d) == fs0;
    assert Framed(fs, fs0, h, h);
    NoFileAncestorKept(fs, fs0, h, h, h);
    FramedSubtree(fs, fs0, h, h, ch);
    FramedSubtree(fs, fs0, h, h, cd);
  }

  /** restore_cache's first move, into a cleared html directory. */
  lemma MoveHtmlBack(fs1: FS, cache: Path, l: Layout)
    requires WellFormed(fs1) && OutsideCache(cache, l) && |l.html| > 0
    requires Vacant(fs1, l.html) && !FileAncestor(fs1, l.html)
    requires IsDir(fs1, cache) && IsDir(fs1, CachedHtml(cache)) && IsDir(fs1, CachedDoctrees(cache))
    ensures var fs2 := Move(fs1, CachedHtml(cache), l.html).fs;
      && WellFormed(fs2) && IsDir(fs2, cache) && IsDir(fs2, l.html)
      && Subtree(fs2, l.html) == Subtree(fs1, CachedHtml(cache))
      && IsDir(fs2, CachedDoctrees(cache))
      && Subtree(fs2, CachedDoctrees(cache)) == Subtree(fs1, CachedDoctrees(cache))
  {
    var h, ch, cd := l.html, CachedHtml(cache), CachedDoctrees(cache);
    CacheEntriesApart(cache, l);
    DirIsDirSlot(fs1, ch);
    MoveIntoVacancy(fs1, ch, h);
    var fs2 := Move(fs1, ch, h).fs;
    FramedSubtree(fs1, fs2, ch, h, cd);
    assert cd + [] == cd && h + [] == h && ch + [] == ch;
  }

  lemma NestedFirstMove(fs: FS, cache: Path, l: Layout)
    requires CachedTwice(fs, cache, l)
    ensures |cache| > 0 && |l.html| > 0 && |l.doctrees| > 0
    ensures var fs2 := AfterFirstMove(fs, cache, l);
      && RestoreCache(fs, cache, l) == Move(fs2, CachedDoctrees(cache), l.doctrees)
      && WellFormed(fs2) && IsDir(fs2, cache) && IsDir(fs2, l.html)
      && Subtree(fs2, l.html) == Subtree(fs, CachedHtml(cache))
      && IsDir(fs2, CachedDoctrees(cache))
      && Subtree(fs2, CachedDoctrees(cache)) == Subtree(fs, CachedDoctrees(cache))
  {
    NestedClear(fs, cache, l);
    MoveHtmlBack(RmTree(RmTree(fs, l.html), l.doctrees), cache, l);
  }

  /** After the first move the doctree copy is back inside the html
      directory, and the nested target exists exactly when the cached copy
      held it. */
  lemma CopyBackEntries(fs: FS, fs2: FS, cache: Path, l: Layout)
    requires Nested(l) && Subtree(fs2, l.html) == Subtree(fs, CachedHtml(cache))
    requires IsDir(fs, CachedHtml(cache) + [Basename(l.doctrees)])
    ensures IsDir(fs2, l.doctrees)
    ensures NestedTarget(l) in fs2 <==> CachedHtml(cache) + [Basename(l.doctrees), "doctrees"] in fs
  {
    var h, d, ch := l.html, l.doctrees, CachedHtml(cache);
    var n := Basename(d);
    NestedShape(l);
    SubtreeEntry(fs2, h, fs, ch, [n]);
    SubtreeEntry(fs2, h, fs, ch, [n, "doctrees"]);
    assert h + [n, "doctrees"] == NestedTarget(l);
  }

  /** restore_cache's second move in the plain layout, onto a doctree
      directory that already exists. */
  lemma MoveDoctreesOntoCopy(fs2: FS, cache: Path, l: Layout)
    requires WellFormed(fs2) && OutsideCache(cache, l) && Nested(l)
    requires IsDir(fs2, cache) && IsDir(fs2, l.html) && IsDir(fs2, l.doctrees)
    requires IsDir(fs2, CachedDoctrees(cache))
    ensures var r := Move(fs2, CachedDoctrees(cache), l.doctrees);
      && (NestedTarget(l) in fs2 ==> r == Raised(DestinationExists, fs2))
      && (NestedTarget(l) !in fs2 ==>
            && r.Done? && WellFormed(r.fs)
            && IsDir(r.fs, cache) && IsDir(r.fs, l.html) && IsDir(r.fs, l.doctrees)
            && Subtree(r.fs, NestedTarget(l)) == Subtree(fs2, CachedDoctrees(cache)))
  {
    var h, d, cd := l.html, l.doctrees, CachedDoctrees(cache);
    CacheEntriesApart(cache, l);
    assert MoveTarget(fs2, cd, d) == NestedTarget(l);
    if NestedTarget(l) !in fs2 {
      var r := Move(fs2, cd, d);
      assert NestedTarget(l) + [] == NestedTarget(l);
      assert Parent(NestedTarget(l)) == d;
      assert !(cd <= h) && !(d <= h) && !(cd <= cache) && !(d <= cache);
    }
  }

  /** The relative path of the nested entry inside the html directory. */
  function NestedEntry(l: Layout): Path
    requires Nested(l)
  {
    [Basename(l.doctrees), "doctrees"]
  }

  lemma PrefixCancel(h: Path, e: Path, rel: Path)
    ensures h + e <= h + rel <==> e <= rel
  {
    if h + e <= h + rel {
      assert rel[..|e|] == (h + rel)[|h|..|h| + |e|];
    }
  }

  lemma PrefixAt(q: Path, p: Path)
    ensures q <= p ==> q == p[..|q|]
  {
  }

  /** A change confined to src and to the entry h + e, which adds nothing
      above that entry except on the way through existing directories,
      leaves the tree at h as it was apart from the entry. */
  lemma PruneFramed(a: FS, b: FS, src: Path, h: Path, e: Path)
    requires forall r :: !(src <= h + r)
    requires forall q | q in a && !(src <= q) && !(h + e <= q) :: q in b && b[q] == a[q]
    requires forall q | q in b && q !in a :: h + e <= q || q < h + e
    requires forall i | |h| <= i < |h| + |e| :: (h + e)[..i] in a
    ensures Prune(Subtree(b, h), e) == Prune(Subtree(a, h), e)
  {
    var A, B := Prune(Subtree(b, h), e), Prune(Subtree(a, h), e);
    forall rel | !(e <= rel) ensures SameAt(a, b, h + rel) {
      var q := h + rel;
      PrefixCancel(h, e, rel);
      assert !(q in b && q !in a) by {
        PrefixAt(q, h + e);
      }
    }
    assert forall rel :: (rel in A <==> rel in B) && (rel in A ==> A[rel] == B[rel]) by {
      forall rel ensures (rel in A <==> rel in B) && (rel in A ==> A[rel] == B[rel]) {
        if !(e <= rel) {
          assert SameAt(a, b, h + rel);
        }
      }
    }
    assert A == B;
  }

  /** restore_cache's second move in the plain layout changes the html
      directory only at the nested entry it creates. */
  lemma SecondMoveKeepsHtml(fs2: FS, cache: Path, l: Layout)
    requires OutsideCache(cache, l) && Nested(l)
    requires IsDir(fs2, l.html) && IsDir(fs2, l.doctrees)
    ensures var r := Move(fs2, CachedDoctrees(cache), l.doctrees);
      Prune(Subtree(r.fs, l.html), NestedEntry(l)) == Prune(Subtree(fs2, l.html), NestedEntry(l))
  {
    var h, d, cd, e := l.html, l.doctrees, CachedDoctrees(cache), NestedEntry(l);
    CacheEntriesApart(cache, l);
    ApartBelow(h, cd);
    NestedShape(l);
    MoveFrame(fs2, cd, d);
    assert MoveTarget(fs2, cd, d) == h + e;
    forall i | |h| <= i < |h| + |e| ensures (h + e)[..i] in fs2 {
      if i == |h| {
        assert (h + e)[..i] == h;
      } else {
        assert (h + e)[..i] == d;
      }
    }
    PruneFramed(fs2, Move(fs2, cd, d).fs, cd, h, e);
  }

  /** restore_cache as written, in the plain layout, from a cache whose html
      copy holds a doctree directory: the html directory comes back with
      that copy, and cache/doctrees is then moved inside it as a "doctrees"
      entry; when the cached copy already holds such an entry, the move
      raises shutil.Error instead. Everything else in the html directory is
      the cached copy. */
  lemma NestedRestore(fs: FS, cache: Path, l: Layout)
    requires CachedTwice(fs, cache, l)
    ensures |cache| > 0 && |l.html| > 0 && |l.doctrees| > 0
    ensures var r := RestoreCache(fs, cache, l);
      && (CachedHtml(cache) + [Basename(l.doctrees), "doctrees"] in fs ==>
            r.Raised? && r.err == DestinationExists)
      && (CachedHtml(cache) + [Basename(l.doctrees), "doctrees"] !in fs ==>
            && r.Done? && WellFormed(r.fs)
            && IsDir(r.fs, cache) && IsDir(r.fs, l.html) && IsDir(r.fs, l.doctrees)
            && Subtree(r.fs, NestedTarget(l)) == Subtree(fs, CachedDoctrees(cache))
            // apart from that entry, the html directory is cache/html's copy
            && Prune(Subtree(r.fs, l.html), NestedEntry(l))
                 == Prune(Subtree(fs, CachedHtml(cache)), NestedEntry(l)))
  {
    NestedFirstMove(fs, cache, l);
    var fs2 := AfterFirstMove(fs, cache, l);
    CopyBackEntries(fs, fs2, cache, l);
    MoveDoctreesOntoCopy(fs2, cache, l);
    SecondMoveKeepsHtml(fs2, cache, l);
  }

  /** save_cache in the plain layout caches the doctree directory twice:
      once as cache/doctrees and once inside the copy of the html directory. */
  lemma NestedSave(fs: FS, cache: Path, l: Layout)
    requires ReadyToSave(fs, cache, l) && Nested(l) && IsDir(fs, l.doctrees)
    ensures !(l.html <= cache)
    ensures var s := SaveCache(fs, cache, l);
      && s.Done? && CachedTwice(s.fs, cache, l)
      && (CachedHtml(cache) + [Basename(l.doctrees), "doctrees"] in s.fs <==> NestedTarget(l) in fs)
  {
    SaveEffect(fs, cache, l);
    NestedSaved(fs, SaveCache(fs, cache, l).fs, cache, l);
  }

  lemma NestedSaved(fs: FS, s: FS, cache: Path, l: Layout)
    requires ReadyToSave(fs, cache, l) && Nested(l) && IsDir(fs, l.doctrees)
    requires WellFormed(s) && SavedFrom(fs, s, cache, l)
    ensures CachedTwice(s, cache, l)
    ensures CachedHtml(cache) + [Basename(l.doctrees), "doctrees"] in s <==> NestedTarget(l) in fs
  {
    var h, d, ch, cd := l.html, l.doctrees, CachedHtml(cache), CachedDoctrees(cache);
    var n := Basename(d);
    NestedShape(l);
    assert IsDir(s, h) by {
      assert !(d <= h) && !(cache <= h);
    }
    DirIsDirSlot(s, h);
    SubtreeRoot(s, ch, fs, h);
    SubtreeRoot(s, cd, fs, d);
    CachedCopyEntries(fs, s, cache, l);
  }

  /** The html copy in the cache holds the doctree directory, and holds a
      nested "doctrees" entry exactly when the doctree directory did. */
  lemma CachedCopyEntries(fs: FS, s: FS, cache: Path, l: Layout)
    requires Nested(l) && IsDir(fs, l.doctrees)
    requires Subtree(s, CachedHtml(cache)) == Subtree(fs, l.html)
    ensures IsDir(s, CachedHtml(cache) + [Basename(l.doctrees)])
    ensures CachedHtml(cache) + [Basename(l.doctrees), "doctrees"] in s <==> NestedTarget(l) in fs
  {
    var h, d, ch := l.html, l.doctrees, CachedHtml(cache);
    var n := Basename(d);
    NestedShape(l);
    SubtreeEntry(s, ch, fs, h, [n]);
    SubtreeEntry(s, ch, fs, h, [n, "doctrees"]);
    assert h + [n, "doctrees"] == NestedTarget(l);
  }

  /** A restore that nested the doctrees leaves a state the next save can
      start from. */
  lemma NestedRestoreReady(fs: FS, cache: Path, l: Layout)
    requires CachedTwice(fs, cache, l)
    requires CachedHtml(cache) + [Basename(l.doctrees), "doctrees"] !in fs
    ensures |cache| > 0 && |l.html| > 0 && |l.doctrees| > 0
    ensures var r := RestoreCache(fs, cache, l);
      && r.Done? && ReadyToSave(r.fs, cache, l)
      && IsDir(r.fs, l.doctrees) && NestedTarget(l) in r.fs
  {
    NestedRestore(fs, cache, l);
    var r := RestoreCache(fs, cache, l).fs;
    DirIsDirSlot(r, cache);
    DirIsDirSlot(r, l.html);
    DirIsDirSlot(r, l.doctrees);
    SubtreeRoot(r, NestedTarget(l), fs, CachedDoctrees(cache));
  }

  /** In the plain layout the cache breaks down on the third run: starting
      from a build whose doctree directory holds no "doctrees" entry, a
      save, a restore and a second save succeed (the restore already nests
      the doctrees one level too deep), and the restore after that raises
      shutil.Error because the nested entry it would create exists. The
      builds between the runs are taken to leave the html and doctree
      directories as the restore left them; a build that rewrote them
      (removing the nested entry) is not covered. */
  lemma NestedCacheBreaks(fs: FS, cache: Path, l: Layout)
    requires ReadyToSave(fs, cache, l) && Nested(l) && IsDir(fs, l.doctrees)
    requires NestedTarget(l) !in fs
    ensures |cache| > 0 && |l.html| > 0 && |l.doctrees| > 0 && !(l.html <= cache)
    ensures var s1 := SaveCache(fs, cache, l);
      && s1.Done?
      && var r1 := RestoreCache(s1.fs, cache, l);
      && r1.Done? && IsDir(r1.fs, NestedTarget(l))
      && var s2 := SaveCache(r1.fs, cache, l);
      && s2.Done?
      && var r2 := RestoreCache(s2.fs, cache, l);
      && r2.Raised? && r2.err == DestinationExists
  {
    NestedSave(fs, cache, l);
    var s1 := SaveCache(fs, cache, l).fs;
    NestedRestore(s1, cache, l);
    NestedRestoreReady(s1, cache, l);
    var r1 := RestoreCache(s1, cache, l).fs;
    SubtreeRoot(r1, NestedTarget(l), s1, CachedDoctrees(cache));
    NestedSave(r1, cache, l);
    var s2 := SaveCache(r1, cache, l).fs;
    NestedRestore(s2, cache, l);
  }

  // -----------------------------------------------------------------------
  // The corrected restore round-trips in the plain layout

  /** Replacing the doctree directory inside an existing html directory
      changes the html directory only there. */
  lemma HtmlAroundDoctrees(a: FS, b: FS, cd: Path, l: Layout)
    requires Nested(l) && Framed(a, b, cd, l.doctrees) && Apart(l.html, cd)
    requires l.html in a && Subtree(a, l.doctrees) == Subtree(b, l.doctrees)
    ensures Subtree(a, l.html) == Subtree(b, l.html)
  {
    var h, d := l.html, l.doctrees;
    ApartBelow(h, cd);
    forall r ensures SameAt(a, b, h + r) {
      var q := h + r;
      if d <= q {
        SameBelow(a, b, d, q);
      } else if q in b && q !in a && q < d {
        BelowParent(q, d);
        PrefixEqual(h, q);
      }
    }
    SubtreeFrame(a, b, h);
  }

  /** The corrected restore's first step, from a state save_cache left in
      the plain layout. */
  lemma FixedNestedFirstStep(fs: FS, s: FS, cache: Path, l: Layout)
    requires ReadyToSave(fs, cache, l) && Nested(l)
    requires WellFormed(s) && SavedFrom(fs, s, cache, l)
    ensures |l.html| > 0
    ensures var m := Move(RmTree(s, l.html), CachedHtml(cache), l.html);
      && m.Done? && WellFormed(m.fs)
      && Subtree(m.fs, l.html) == Subtree(fs, l.html)
      && Framed(s, m.fs, CachedHtml(cache), l.html)
      && DirSlot(m.fs, l.html) && IsDir(m.fs, cache)
  {
    var h, d, ch, cd := l.html, l.doctrees, CachedHtml(cache), CachedDoctrees(cache);
    CacheEntriesApart(cache, l);
    SubtreeRoot(s, ch, fs, h);
    ParentDirClear(s, ch);
    assert h in s ==> h in fs by {
      assert !(cache <= h) && !(h < cache);
    }
    NoFileAncestorKept(fs, s, d, cache, h);
    ClearAndMove(s, ch, h);
    var fsB := Move(RmTree(s, h), ch, h).fs;
    NoFileAncestorKept(s, fsB, ch, h, h);
    SubtreeRoot(fsB, h, fs, h);
    assert !(ch <= cache) && !(h <= cache);
  }

  /** Before the corrected restore's second step, both of its paths are
      free for a directory and the cached doctrees are the saved ones. */
  lemma FixedNestedBetweenSteps(fs: FS, s: FS, fsB: FS, cache: Path, l: Layout)
    requires ReadyToSave(fs, cache, l) && Nested(l)
    requires WellFormed(s) && SavedFrom(fs, s, cache, l)
    requires WellFormed(fsB) && Subtree(fsB, l.html) == Subtree(fs, l.html)
    requires Framed(s, fsB, CachedHtml(cache), l.html)
    requires DirSlot(fsB, l.html) && IsDir(fsB, cache)
    ensures DirSlot(fsB, CachedDoctrees(cache)) && DirSlot(fsB, l.doctrees)
    ensures Subtree(fsB, CachedDoctrees(cache)) == Subtree(fs, l.doctrees)
    ensures Subtree(fsB, l.doctrees) == Subtree(fs, l.doctrees)
  {
    var h, d, ch, cd := l.html, l.doctrees, CachedHtml(cache), CachedDoctrees(cache);
    CacheEntriesApart(cache, l);
    FramedSubtree(s, fsB, ch, h, cd);
    SubtreeRoot(fsB, cd, fs, d);
    ParentDirClear(fsB, cd);
    DoctreesInsideHtml(fs, fsB, l);
  }

  /** A doctree directory inside a directory slot is itself free for a
      directory when the html directories agree. */
  lemma DoctreesInsideHtml(fs: FS, fsB: FS, l: Layout)
    requires WellFormed(fs) && Nested(l) && DirSlot(fs, l.doctrees)
    requires Subtree(fsB, l.html) == Subtree(fs, l.html) && DirSlot(fsB, l.html)
    ensures DirSlot(fsB, l.doctrees)
    ensures Subtree(fsB, l.doctrees) == Subtree(fs, l.doctrees)
  {
    var h, d := l.html, l.doctrees;
    var n := Basename(d);
    NestedShape(l);
    SubtreeBelow(fsB, fs, h, d);
    SubtreeRoot(fsB, d, fs, d);
    DirSlotChild(fsB, h, n);
  }

  /** The corrected restore's second step, onto the doctree copy that came
      back with the html directory. */
  lemma FixedNestedSecondStep(fs: FS, s: FS, fsB: FS, cache: Path, l: Layout)
    requires ReadyToSave(fs, cache, l) && Nested(l)
    requires WellFormed(s) && SavedFrom(fs, s, cache, l)
    requires WellFormed(fsB) && Subtree(fsB, l.html) == Subtree(fs, l.html)
    requires Framed(s, fsB, CachedHtml(cache), l.html)
    requires DirSlot(fsB, l.html) && IsDir(fsB, cache)
    ensures |l.doctrees| > 0
    ensures var m := Move(RmTree(fsB, l.doctrees), CachedDoctrees(cache), l.doctrees);
      && m.Done? && WellFormed(m.fs)
      && Subtree(m.fs, l.doctrees) == Subtree(fs, l.doctrees)
      && Subtree(m.fs, l.html) == Subtree(fs, l.html)
  {
    var h, d, cd := l.html, l.doctrees, CachedDoctrees(cache);
    CacheEntriesApart(cache, l);
    FixedNestedBetweenSteps(fs, s, fsB, cache, l);
    ClearAndMove(fsB, cd, d);
    var fsD := Move(RmTree(fsB, d), cd, d).fs;
    if h in fsB {
      HtmlAroundDoctrees(fsB, fsD, cd, l);
    } else {
      NoHtmlNoDoctrees(fs, fsB, cache, l);
    }
  }

  /** Without an html directory there is no doctree directory to restore,
      and the corrected restore's second step changes nothing. */
  lemma NoHtmlNoDoctrees(fs: FS, fsB: FS, cache: Path, l: Layout)
    requires ReadyToSave(fs, cache, l) && Nested(l)
    requires WellFormed(fsB) && Subtree(fsB, l.html) == Subtree(fs, l.html)
    requires Subtree(fsB, CachedDoctrees(cache)) == Subtree(fs, l.doctrees)
    requires l.html !in fsB
    ensures |l.doctrees| > 0
    ensures Move(RmTree(fsB, l.doctrees), CachedDoctrees(cache), l.doctrees).fs == fsB
  {
    var h, d, cd := l.html, l.doctrees, CachedDoctrees(cache);
    SubtreeRoot(fsB, h, fs, h);
    assert d !in fs;
    SubtreeRoot(fsB, cd, fs, d);
    assert d !in fsB by {
      AbsentIsVacant(fsB, h);
    }
    assert RmTree(fsB, d) == fsB;
  }

  /** With the corrected restore, saving and then restoring in the plain
      layout gives back exactly the html directory, doctree directory
      included, and the doctree directory that were saved. */
  lemma FixedNestedRoundTrip(fs: FS, cache: Path, l: Layout)
    requires ReadyToSave(fs, cache, l) && Nested(l)
    ensures |l.html| > 0 && |l.doctrees| > 0 && !(l.html <= cache)
    ensures var s := SaveCache(fs, cache, l);
      && s.Done?
      && var r := RestoreCacheFixed(s.fs, cache, l);
      && r.Done? && WellFormed(r.fs)
      && Subtree(r.fs, l.html) == Subtree(fs, l.html)
      && Subtree(r.fs, l.doctrees) == Subtree(fs, l.doctrees)
  {
    SaveEffect(fs, cache, l);
    var s := SaveCache(fs, cache, l).fs;
    FixedNestedFirstStep(fs, s, cache, l);
    var fsB := Move(RmTree(s, l.html), CachedHtml(cache), l.html).fs;
    FixedNestedSecondStep(fs, s, fsB, cache, l);
  }
}

=== FILE: shutil.dfy ===
/** The three standard-library tree operations the tool relies on, on the
    abstract filesystem: shutil.rmtree with ignore_errors=True,
    pathlib.Path.mkdir, shutil.copytree and shutil.move, each with the
    exception CPython raises in each case, in the order CPython checks them.
    No operation ever targets the filesystem root. */
module Shutil {
  import opened FileSystem

  /** shutil.rmtree(p, ignore_errors=True): removes a directory and all it
      holds; on a missing path or a regular file every error is ignored and
      nothing changes. */
  function RmTree(fs: FS, p: Path): (r: FS)
    requires |p| > 0
    ensures IsDir(fs, p) ==> Vacant(r, p)
    ensures !IsDir(fs, p) ==> r == fs
    ensures forall q | !(p <= q) :: SameAt(fs, r, q)
    ensures forall q | q in r :: q in fs && r[q] == fs[q]
    ensures WellFormed(fs) ==> WellFormed(r)
  {
    if IsDir(fs, p) then Prune(fs, p) else fs
  }

  /** pathlib.Path.mkdir() without parents or exist_ok. */
  function Mkdir(fs: FS, p: Path): (r: Outcome)
    requires |p| > 0
    ensures r.Done? <==> p !in fs && IsDir(fs, Parent(p)) && !FileAncestor(fs, p)
    ensures r.Done? ==> r.fs == fs[p := Dir]
    ensures r.Raised? ==> r.fs == fs
    ensures r.Raised? && WellFormed(fs) && p in fs ==> r.err == FileExists
    ensures WellFormed(fs) ==> WellFormed(r.fs)
  {
    if FileAncestor(fs, p) then
      assert WellFormed(fs) ==> p !in fs by {
        if WellFormed(fs) && p in fs {
          AncestorsExist(fs, p);
        }
      }
      Raised(NotADirectory, fs)
    else if Parent(p) !in fs then Raised(FileNotFound, fs)
    else if p in fs then Raised(FileExists, fs)
    else
      Done(fs[p := Dir])
  }

  /** shutil.copytree(src, dst): lists src (FileNotFoundError when missing,
      NotADirectoryError when it is a file), then os.makedirs(dst), which
      creates missing ancestors and fails when dst lies below a file or
      already exists, then copies the whole tree. The source is never
      changed; dst strictly inside src is excluded because copytree then
      keeps descending into its own output. */
  function CopyTree(fs: FS, src: Path, dst: Path): (r: Outcome)
    requires |dst| > 0 && !(src < dst)
    ensures r.Raised? ==> r.fs == fs
    ensures r.Done? <==> IsDir(fs, src) && dst !in fs && !FileAncestor(fs, dst)
    ensures src !in fs ==> r == Raised(LookupError(fs, src), fs)
    ensures IsDir(fs, src) && dst in fs && !FileAncestor(fs, dst) ==> r == Raised(FileExists, fs)
    ensures r.Done? && WellFormed(fs) ==>
      && WellFormed(r.fs)
      && Subtree(r.fs, dst) == Subtree(fs, src)
      && Subtree(r.fs, src) == Subtree(fs, src)
    ensures forall q | q in fs && !(dst <= q) :: q in r.fs && r.fs[q] == fs[q]
    ensures forall q | q in r.fs && q !in fs :: dst <= q || (q < dst && r.fs[q] == Dir)
  {
    if src !in fs then Raised(LookupError(fs, src), fs)
    else if fs[src].File? then Raised(NotADirectory, fs)
    else if FileAncestor(fs, dst) then Raised(NotADirectory, fs)
    else if dst in fs then Raised(FileExists, fs)
    else
      var t := Subtree(fs, src);
      var mk := MkAncestors(fs, dst);
      var fs' := Graft(mk, dst, t);
      assert WellFormed(fs) ==> WellFormed(fs') && Subtree(fs', dst) == t && Subtree(fs', src) == t by {
        if WellFormed(fs) {
          CopyPlaced(fs, src, dst);
        }
      }
      Done(fs')
  }

  /** The effect of a successful copy on a well-formed filesystem. */
  lemma CopyPlaced(fs: FS, src: Path, dst: Path)
    requires WellFormed(fs) && IsDir(fs, src)
    requires |dst| > 0 && !(src < dst) && dst !in fs && !FileAncestor(fs, dst)
    ensures var fs' := Graft(MkAncestors(fs, dst), dst, Subtree(fs, src));
      && WellFormed(fs')
      && Subtree(fs', dst) == Subtree(fs, src)
      && Subtree(fs', src) == Subtree(fs, src)
  {
    var t := Subtree(fs, src);
    var mk := MkAncestors(fs, dst);
    var fs' := Graft(mk, dst, t);
    AbsentIsVacant(fs, dst);
    MkAncestorsWellFormed(fs, dst);
    SubtreeWellFormed(fs, src);
    assert Vacant(mk, dst);
    assert Parent(dst) < dst;
    GraftWellFormed(mk, dst, t);
    SubtreeOfGraft(mk, dst, t);
    forall r ensures SameAt(fs, fs', src + r) {
    }
    SubtreeFrame(fs, fs', src);
  }

  /** Where shutil.move(src, dst) puts src: inside dst when dst is an
      existing directory, at dst otherwise. */
  function MoveTarget(fs: FS, src: Path, dst: Path): (t: Path)
    requires |src| > 0 && |dst| > 0
    ensures |t| > 0
    ensures IsDir(fs, dst) ==> Parent(t) == dst && Basename(t) == Basename(src)
    ensures !IsDir(fs, dst) ==> t == dst
  {
    if IsDir(fs, dst) then dst + [Basename(src)] else dst
  }

  /** shutil.move(src, dst). An existing directory dst receives src inside
      it (shutil.Error when that entry exists); moving a path onto itself
      does nothing. Otherwise os.rename, falling back to copytree + rmtree
      for a directory (which creates missing ancestors) and to copy2 +
      unlink for a file (which does not). */
  function ShutilMove(fs: FS, src: Path, dst: Path): (r: Outcome)
    requires |src| > 0 && |dst| > 0
    ensures r.Raised? ==> r.fs == fs
    ensures src !in fs ==> r.fs == fs
    ensures src !in fs && r.Raised? ==>
      r.err == LookupError(fs, src) || (r.err == DestinationExists && IsDir(fs, dst))
    ensures IsDir(fs, dst) && src != dst && MoveTarget(fs, src, dst) in fs ==>
      r == Raised(DestinationExists, fs)
    ensures IsDir(fs, src) && src != dst && src <= dst && MoveTarget(fs, src, dst) !in fs ==>
      r == Raised(MoveIntoItself, fs)
    ensures (IsDir(fs, src) && !(src <= dst) && MoveTarget(fs, src, dst) !in fs
             && !FileAncestor(fs, MoveTarget(fs, src, dst))) ==> r.Done?
    ensures r.Done? && WellFormed(fs) && src != dst ==>
      && WellFormed(r.fs)
      && Subtree(r.fs, MoveTarget(fs, src, dst)) == Subtree(fs, src)
      && Vacant(r.fs, src)
    ensures forall q | q in fs && !(src <= q) && !(dst <= q) :: q in r.fs && r.fs[q] == fs[q]
    ensures forall q | q in r.fs && q !in fs :: dst <= q || (q < dst && r.fs[q] == Dir)
  {
    if IsDir(fs, dst) then
      if src == dst then Done(fs)
      else
        var target := dst + [Basename(src)];
        if target in fs then Raised(DestinationExists, fs)
        else
          assert src <= dst ==> src <= target;
          assert src in fs && src <= target ==> src <= dst by {
            if src in fs && src <= target {
              assert target[..|dst|] == dst;
              if |src| <= |dst| {
                PrefixOrder(src, dst, target);
              } else {
                PrefixEqual(src, target);
              }
            }
          }
          Relocate(fs, src, target)
    else Relocate(fs, src, dst)
  }

  /** shutil.move touches nothing but src and the entry it creates: moving
      into an existing directory leaves the directory's other entries alone. */
  lemma ShutilMoveFrame(fs: FS, src: Path, dst: Path)
    requires |src| > 0 && |dst| > 0
    ensures var r := ShutilMove(fs, src, dst);
      && (forall q | q in fs && !(src <= q) && !(MoveTarget(fs, src, dst) <= q) :: q in r.fs && r.fs[q] == fs[q])
      && (forall q | q in r.fs && q !in fs ::
            MoveTarget(fs, src, dst) <= q || (q < MoveTarget(fs, src, dst) && r.fs[q] == Dir))
  {
  }

  /** os.rename(src, dst) with shutil.move's fallbacks, for a dst that is
      not an existing directory. */
  function Relocate(fs: FS, src: Path, dst: Path): (r: Outcome)
    requires |src| > 0 && |dst| > 0 && !IsDir(fs, dst)
    ensures r.Raised? ==> r.fs == fs
    ensures src !in fs ==> r == Raised(LookupError(fs, src), fs)
    ensures IsDir(fs, src) && src <= dst ==> r == Raised(MoveIntoItself, fs)
    ensures IsDir(fs, src) && !(src <= dst) ==> (r.Done? <==> dst !in fs && !FileAncestor(fs, dst))
    ensures r.Done? && WellFormed(fs) && src != dst ==>
      && WellFormed(r.fs)
      && Subtree(r.fs, dst) == Subtree(fs, src)
      && Vacant(r.fs, src)
    ensures forall q | q in fs && !(src <= q) && !(dst <= q) :: q in r.fs && r.fs[q] == fs[q]
    ensures forall q | q in r.fs && q !in fs :: dst <= q || (q < dst && r.fs[q] == Dir)
  {
    if src !in fs then Raised(LookupError(fs, src), fs)
    else if fs[src].Dir? then
      if src <= dst then Raised(MoveIntoItself, fs)
      else if FileAncestor(fs, dst) then Raised(NotADirectory, fs)
      else if dst in fs then Raised(FileExists, fs)
      else
        var placed := Graft(MkAncestors(fs, dst), dst, Subtree(fs, src));
        assert WellFormed(fs) ==>
          && WellFormed(Prune(placed, src))
          && Subtree(Prune(placed, src), dst) == Subtree(fs, src) by {
          if WellFormed(fs) {
            RelocateDirPlaced(fs, src, dst);
          }
        }
        Done(Prune(placed, src))
    else if FileAncestor(fs, dst) then Raised(NotADirectory, fs)
    else if Parent(dst) !in fs then Raised(FileNotFound, fs)
    else if dst == src then Done(fs)
    else
      assert WellFormed(fs) ==>
        && WellFormed(Prune(fs, src)[dst := fs[src]])
        && Subtree(Prune(fs, src)[dst := fs[src]], dst) == Subtree(fs, src) by {
        if WellFormed(fs) {
          RelocateFilePlaced(fs, src, dst);
        }
      }
      Done(Prune(fs, src)[dst := fs[src]])
  }

  lemma RelocateDirPlaced(fs: FS, src: Path, dst: Path)
    requires WellFormed(fs) && IsDir(fs, src) && |src| > 0
    requires |dst| > 0 && !(src <= dst) && dst !in fs && !FileAncestor(fs, dst)
    ensures var placed := Graft(MkAncestors(fs, dst), dst, Subtree(fs, src));
      && WellFormed(Prune(placed, src))
      && Subtree(Prune(placed, src), dst) == Subtree(fs, src)
  {
    var placed := Graft(MkAncestors(fs, dst), dst, Subtree(fs, src));
    var pruned := Prune(placed, src);
    CopyPlaced(fs, src, dst);
    PruneWellFormed(placed, src);
    NothingBelowSourceAt(fs, src, dst);
    forall r ensures SameAt(placed, pruned, dst + r) {
      assert !(src <= dst + r);
    }
    SubtreeFrame(placed, pruned, dst);
  }

  lemma RelocateFilePlaced(fs: FS, src: Path, dst: Path)
    requires WellFormed(fs) && src in fs && fs[src].File? && |src| > 0
    requires |dst| > 0 && !IsDir(fs, dst) && !FileAncestor(fs, dst) && Parent(dst) in fs && dst != src
    ensures var moved := Prune(fs, src)[dst := fs[src]];
      && WellFormed(moved)
      && Subtree(moved, dst) == Subtree(fs, src)
  {
    var moved := Prune(fs, src)[dst := fs[src]];
    FileIsLeaf(fs, src);
    assert Parent(dst) == dst[..|dst| - 1];
    assert !(src <= Parent(dst));
    forall r ensures (dst + r in moved <==> src + r in fs)
      && (src + r in fs ==> dst + r in moved && moved[dst + r] == fs[src + r]) {
      assert src + [] == src && dst + [] == dst;
      if r != [] {
        assert src <= src + r && src + r != src;
        assert dst <= dst + r && dst + r != dst;
        if dst in fs {
          FileIsLeaf(fs, dst);
        } else {
          AbsentIsVacant(fs, dst);
        }
      }
    }
    SubtreeExt(fs, src, moved, dst);
  }
}

=== FILE: theme.dfy ===
/** restore_theme_files_mtime: the HTML templates shipped by the theme's
    distribution and by Sphinx are freshly installed, so their mtimes are
    newer than any earlier build output and Sphinx would rebuild every page.
    The tool stamps each of them with a fixed old mtime (1900-01-01). The
    installed distributions are an input; the sentinel timestamp is a
    parameter because its value depends on the local time zone. */
module Theme {
  import opened FileSystem

  /** One Requires-Dist entry of a distribution, parsed: its project name and
      whether it carries an environment marker (an optional dependency). */
  datatype Requirement = Requirement(name: string, hasMarker: bool)

  /** What importlib.metadata reports for one installed distribution: its
      requirements and its recorded files, already located on disk (None
      where the metadata has no such entry). */
  datatype Distribution = Distribution(requirements: Option<seq<Requirement>>, files: Option<seq<Path>>)

  /** A metadata lookup: its value, or the exception it raised. */
  datatype Result<T> = Ok(value: T) | Fail(err: Error)

  /** Installed distributions by name. */
  type Installed = map<string, Distribution>

  /** Result of stamping: every file stamped; a PermissionError on one file
      (after the files before it were stamped); or an exception that
      escapes (PackageNotFoundError from the metadata lookups, or the
      error os.stat raises on a recorded file that does not exist). */
  datatype ThemeOutcome =
    | Stamped(fs: FS)
    | Denied(file: Path, fs: FS)
    | Failed(err: Error, fs: FS)

  // -----------------------------------------------------------------------
  // Selecting the files

  /** str.rfind('.'): the index of the last dot, if any. */
  function LastDot(name: Name): (r: Option<nat>)
    ensures r.Some? ==> r.value < |name| && name[r.value] == '.'
    ensures r.Some? ==> forall j | r.value < j < |name| :: name[j] != '.'
    ensures r.None? ==> forall j | 0 <= j < |name| :: name[j] != '.'
  {
    if |name| == 0 then None
    else if name[|name| - 1] == '.' then Some(|name| - 1)
    else LastDot(name[..|name| - 1])
  }

  /** PurePath.suffix of a final path component: from the last dot on, but
      empty when there is no dot, when the dot leads the name (a hidden
      file) or when it ends the name. */
  function Suffix(name: Name): string {
    match LastDot(name)
    case Some(i) => if 0 < i < |name| - 1 then name[i..] else ""
    case None => ""
  }

  /** The file is a template: its suffix is exactly ".html". */
  predicate IsHtml(p: Path) {
    |p| > 0 && Suffix(Basename(p)) == ".html"
  }

  /** A name has suffix ".html" exactly when it ends in ".html" with at least
      one character before the dot; so ".html" itself, "page.HTML" and
      "page.html.bak" do not qualify. */
  lemma HtmlSuffix(name: Name)
    ensures Suffix(name) == ".html" <==> |name| > 5 && name[|name| - 5..] == ".html"
  {
    var k := |name| - 5;
    if Suffix(name) == ".html" {
      var i := LastDot(name).value;
      assert name[i..] == ".html";
      assert |name| - i == 5;
    }
    if |name| > 5 && name[k..] == ".html" {
      assert name[k] == '.';
      assert forall j | k < j < |name| :: name[j] != '.' by {
        forall j | k < j < |name| ensures name[j] != '.' {
          assert name[j] == name[k..][j - k];
        }
      }
      var r := LastDot(name);
      assert r.Some? && r.value == k;
    }
  }

  /** The templates among a distribution's recorded files, in order. */
  function HtmlOf(files: seq<Path>): (h: seq<Path>)
    ensures forall p :: p in h <==> p in files && IsHtml(p)
    ensures |h| <= |files|
  {
    if files == [] then []
    else if IsHtml(files[0]) then [files[0]] + HtmlOf(files[1..])
    else HtmlOf(files[1..])
  }

  function FilesOf(d: Distribution): seq<Path> {
    match d.files
    case Some(fs) => fs
    case None => []
  }

  function RequirementsOf(d: Distribution): seq<Requirement> {
    match d.requirements
    case Some(rs) => rs
    case None => []
  }

  /** p is a template recorded by one of the named distributions. */
  predicate TemplateOf(dists: Installed, deps: seq<string>, p: Path) {
    exists dep | dep in deps :: dep in dists && p in FilesOf(dists[dep]) && IsHtml(p)
  }

  /** The templates of the named distributions, in order; a name that is not
      installed raises PackageNotFoundError. */
  function HtmlFiles(deps: seq<string>, dists: Installed): (r: Result<seq<Path>>)
    ensures r.Ok? <==> forall dep | dep in deps :: dep in dists
    ensures r.Fail? ==> r.err == PackageNotFound
    ensures r.Ok? ==> forall p :: p in r.value <==> TemplateOf(dists, deps, p)
  {
    if deps == [] then Ok([])
    else if deps[0] !in dists then Fail(PackageNotFound)
    else
      match HtmlFiles(deps[1..], dists)
      case Fail(e) =>
        assert forall dep | dep in deps[1..] :: dep in deps;
        Fail(e)
      case Ok(rest) =>
        assert forall dep | dep in deps :: dep == deps[0] || dep in deps[1..];
        Ok(HtmlOf(FilesOf(dists[deps[0]])) + rest)
  }

  // -----------------------------------------------------------------------
  // Which distributions

  /** The requirements loop as written: it parses every requirement and
      skips the optional ones, but appends nothing. */
  function ScanRequirements(deps: seq<string>, reqs: seq<Requirement>): seq<string> {
    if reqs == [] then deps
    else if reqs[0].hasMarker then ScanRequirements(deps, reqs[1..])
    else ScanRequirements(deps, reqs[1..])
  }

  /** The distributions whose templates are stamped, as written. */
  function ThemeDeps(theme: string, reqs: seq<Requirement>): seq<string> {
    ScanRequirements([theme, "sphinx"], reqs)
  }

  /** The requirements loop has no effect: whatever the theme requires, only
      the theme itself and Sphinx are searched. */
  lemma {:induction false} ScanAddsNothing(deps: seq<string>, reqs: seq<Requirement>)
    ensures ScanRequirements(deps, reqs) == deps
    decreases |reqs|
  {
    if reqs != [] {
      ScanAddsNothing(deps, reqs[1..]);
    }
  }

  lemma ThemeDepsIgnoreRequirements(theme: string, reqs: seq<Requirement>)
    ensures ThemeDeps(theme, reqs) == [theme, "sphinx"]
    ensures forall r | r in reqs && r.name != theme && r.name != "sphinx" :: r.name !in ThemeDeps(theme, reqs)
  {
    ScanAddsNothing([theme, "sphinx"], reqs);
  }

  /** The requirements loop as evidently intended: each requirement without
      a marker is appended. */
  function CollectRequirements(deps: seq<string>, reqs: seq<Requirement>): (r: seq<string>)
    ensures deps <= r
    ensures forall q | q in reqs && !q.hasMarker :: q.name in r
    ensures forall n | n in r :: n in deps || exists q | q in reqs :: !q.hasMarker && q.name == n
    decreases |reqs|
  {
    assert forall q | q in reqs :: q == reqs[0] || q in reqs[1..];
    if reqs == [] then deps
    else if reqs[0].hasMarker then CollectRequirements(deps, reqs[1..])
    else
      var deps' := deps + [reqs[0].name];
      var r := CollectRequirements(deps', reqs[1..]);
      assert r[|deps|] == deps'[|deps|] == reqs[0].name;
      assert reqs[0] in reqs;
      r
  }

  /** The distributions whose templates the corrected loop stamps: the
      theme, Sphinx, and every unconditional requirement of the theme. */
  function ThemeDepsFixed(theme: string, reqs: seq<Requirement>): seq<string> {
    CollectRequirements([theme, "sphinx"], reqs)
  }

  lemma ThemeDepsFixedSelects(theme: string, reqs: seq<Requirement>, n: string)
    ensures n in ThemeDepsFixed(theme, reqs) <==>
      n == theme || n == "sphinx" || exists q | q in reqs :: !q.hasMarker && q.name == n
  {
    var deps := ThemeDepsFixed(theme, reqs);
    assert [theme, "sphinx"] <= deps;
    assert deps[0] == theme && deps[1] == "sphinx";
  }

  // -----------------------------------------------------------------------
  // Stamping

  /** A node with its mtime set to t; directories carry no modelled mtime. */
  function Touch(n: Node, t: Time): (m: Node)
    ensures m.File? <==> n.File?
    ensures m.File? ==> m.content == n.content && m.mtime == t
    ensures n.Dir? ==> m == n
  {
    if n.File? then File(n.content, t) else n
  }

  /** Reference definition of the intended effect: every listed path that
      exists is stamped, every other path is left as it was. */
  function StampAll(fs: FS, paths: set<Path>, t: Time): (r: FS)
    ensures r.Keys == fs.Keys
  {
    map p | p in fs :: if p in paths then Touch(fs[p], t) else fs[p]
  }

  /** The stamping loop: os.stat then os.utime on each file in order.
      A missing file makes os.stat raise; a PermissionError from os.utime
      ends the loop, with the files before it already stamped. */
  function StampFiles(fs: FS, files: seq<Path>, denied: set<Path>, t: Time): (r: ThemeOutcome)
    ensures r.Stamped? <==> forall i | 0 <= i < |files| :: files[i] in fs && files[i] !in denied
    ensures r.Denied? ==> r.file in files && r.file in fs && r.file in denied
    ensures r.Failed? ==> exists i | 0 <= i < |files| :: files[i] !in fs && r.err == LookupError(fs, files[i])
    ensures r.fs.Keys == fs.Keys
    ensures forall p | p in fs :: r.fs[p] == fs[p] || (p in files && r.fs[p] == Touch(fs[p], t))
  {
    if files == [] then Stamped(fs)
    else
      var f := files[0];
      if f !in fs then Failed(LookupError(fs, f), fs)
      else if f in denied then Denied(f, fs)
      else
        var fs1 := fs[f := Touch(fs[f], t)];
        var r := StampFiles(fs1, files[1..], denied, t);
        assert forall i | 1 <= i < |files| :: files[i] == files[1..][i - 1];
        assert fs1.Keys == fs.Keys;
        if r.Failed? then
          var i :| 0 <= i < |files[1..]| && files[1..][i] !in fs1 && r.err == LookupError(fs1, files[1..][i]);
          assert files[i + 1] !in fs;
          r
        else r
  }

  /** The paths a list names. */
  function Listed(files: seq<Path>): (s: set<Path>)
    ensures forall p :: p in s <==> p in files
  {
    set i | 0 <= i < |files| :: files[i]
  }

  /** A completed stamping loop has exactly the reference effect. */
  lemma {:induction false} StampFilesEffect(fs: FS, files: seq<Path>, denied: set<Path>, t: Time)
    requires StampFiles(fs, files, denied, t).Stamped?
    ensures StampFiles(fs, files, denied, t).fs == StampAll(fs, Listed(files), t)
    decreases |files|
  {
    if files != [] {
      var f := files[0];
      var fs1 := fs[f := Touch(fs[f], t)];
      StampFilesEffect(fs1, files[1..], denied, t);
      assert Listed(files) == {f} + Listed(files[1..]);
      assert StampAll(fs1, Listed(files[1..]), t) == StampAll(fs, Listed(files), t);
    }
  }

  /** The stamping loop r stopped at entry k: every entry before it exists
      and may be written, entry k is the one reported, and exactly the
      entries before it have been stamped. */
  predicate StopsAt(fs: FS, files: seq<Path>, denied: set<Path>, t: Time, r: ThemeOutcome, k: nat) {
    && k < |files|
    && (forall i | 0 <= i < k :: files[i] in fs && files[i] !in denied)
    && (r.Denied? ==> r.file == files[k] && files[k] in fs && files[k] in denied)
    && (r.Failed? ==> files[k] !in fs && r.err == LookupError(fs, files[k]))
    && r.fs == StampAll(fs, Listed(files[..k]), t)
  }

  /** A stamping loop that stops reports the first entry it could not stamp,
      in list order, and the entries from there on keep their mtime. */
  lemma {:induction false} StampFilesStops(fs: FS, files: seq<Path>, denied: set<Path>, t: Time)
    requires !StampFiles(fs, files, denied, t).Stamped?
    ensures exists k :: StopsAt(fs, files, denied, t, StampFiles(fs, files, denied, t), k)
    decreases |files|
  {
    var r := StampFiles(fs, files, denied, t);
    var f := files[0];
    if f !in fs || f in denied {
      assert Listed(files[..0]) == {};
      assert r.fs == StampAll(fs, {}, t);
      assert StopsAt(fs, files, denied, t, r, 0);
    } else {
      var fs1 := fs[f := Touch(fs[f], t)];
      assert r == StampFiles(fs1, files[1..], denied, t);
      StampFilesStops(fs1, files[1..], denied, t);
      var k :| StopsAt(fs1, files[1..], denied, t, r, k);
      StopsLater(fs, files, denied, t, r, k);
    }
  }

  /** A stop at k after the first entry was stamped is a stop at k + 1. */
  lemma StopsLater(fs: FS, files: seq<Path>, denied: set<Path>, t: Time, r: ThemeOutcome, k: nat)
    requires |files| > 0 && files[0] in fs && files[0] !in denied
    requires StopsAt(fs[files[0] := Touch(fs[files[0]], t)], files[1..], denied, t, r, k)
    ensures StopsAt(fs, files, denied, t, r, k + 1)
  {
    var f, rest := files[0], files[1..];
    var fs1 := fs[f := Touch(fs[f], t)];
    assert files[..k + 1] == [f] + rest[..k];
    assert Listed(files[..k + 1]) == {f} + Listed(rest[..k]);
    assert StampAll(fs1, Listed(rest[..k]), t) == StampAll(fs, Listed(files[..k + 1]), t);
    assert forall i | 1 <= i < k + 1 :: files[i] == rest[i - 1];
    assert LookupError(fs1, rest[k]) == LookupError(fs, rest[k]) by {
      assert FileAncestor(fs1, rest[k]) == FileAncestor(fs, rest[k]);
    }
  }

  /** Stamping keeps the filesystem well formed: it only rewrites the mtime
      of existing files. */
  lemma StampFilesWellFormed(fs: FS, files: seq<Path>, denied: set<Path>, t: Time)
    requires WellFormed(fs)
    ensures WellFormed(StampFiles(fs, files, denied, t).fs)
  {
  }

  /** Stamping twice is stamping once. */
  lemma StampAllIdempotent(fs: FS, paths: set<Path>, t: Time)
    ensures StampAll(StampAll(fs, paths, t), paths, t) == StampAll(fs, paths, t)
  {
  }

  /** Running the stamping loop again over the same files changes nothing. */
  lemma StampFilesIdempotent(fs: FS, files: seq<Path>, denied: set<Path>, t: Time)
    requires StampFiles(fs, files, denied, t).Stamped?
    ensures var s := StampFiles(fs, files, denied, t).fs;
      StampFiles(s, files, denied, t) == Stamped(s)
  {
    var s := StampFiles(fs, files, denied, t).fs;
    StampFilesEffect(fs, files, denied, t);
    StampFilesEffect(s, files, denied, t);
    StampAllIdempotent(fs, Listed(files), t);
  }

  // -----------------------------------------------------------------------
  // The whole step

  /** Selection and stamping for a given list of distributions. */
  function StampTheme(fs: FS, deps: seq<string>, dists: Installed, denied: set<Path>, t: Time): (r: ThemeOutcome)
    ensures r.Failed? && r.err == PackageNotFound ==> r.fs == fs
  {
    match HtmlFiles(deps, dists)
    case Fail(e) => Failed(e, fs)
    case Ok(files) => StampFiles(fs, files, denied, t)
  }

  /** restore_theme_files_mtime(theme) as written. metadata.requires(theme)
      raises PackageNotFoundError first when the theme is not an installed
      distribution (as for the themes built into Sphinx). */
  function RestoreThemeFilesMtime(fs: FS, theme: string, dists: Installed, denied: set<Path>, t: Time): (r: ThemeOutcome)
  {
    if theme !in dists then Failed(PackageNotFound, fs)
    else StampTheme(fs, ThemeDeps(theme, RequirementsOf(dists[theme])), dists, denied, t)
  }

  /** restore_theme_files_mtime(theme) with the requirements loop corrected. */
  function RestoreThemeFilesMtimeFixed(fs: FS, theme: string, dists: Installed, denied: set<Path>, t: Time): (r: ThemeOutcome)
  {
    if theme !in dists then Failed(PackageNotFound, fs)
    else StampTheme(fs, ThemeDepsFixed(theme, RequirementsOf(dists[theme])), dists, denied, t)
  }

  /** The templates of the given distributions, as a set. */
  function Templates(dists: Installed, deps: seq<string>): set<Path> {
    set dep, p | dep in deps && dep in dists && p in FilesOf(dists[dep]) && IsHtml(p) :: p
  }

  /** The theme step as the program repeats it on every run: once it has
      stamped, running it again on the result changes nothing. */
  lemma RestoreThemeIdempotent(fs: FS, theme: string, dists: Installed, denied: set<Path>, t: Time)
    requires RestoreThemeFilesMtime(fs, theme, dists, denied, t).Stamped?
    ensures var s := RestoreThemeFilesMtime(fs, theme, dists, denied, t).fs;
      RestoreThemeFilesMtime(s, theme, dists, denied, t) == Stamped(s)
  {
    var deps := ThemeDeps(theme, RequirementsOf(dists[theme]));
    StampFilesIdempotent(fs, HtmlFiles(deps, dists).value, denied, t);
  }

  /** When every named distribution is installed and every template they
      record exists: if all may be written, exactly those templates get the
      sentinel mtime (content untouched) and every other path is left as it
      was; if one may not be written, the step stops with a PermissionError
      on a template. */
  lemma StampThemeEffect(fs: FS, deps: seq<string>, dists: Installed, denied: set<Path>, t: Time)
    requires forall dep | dep in deps :: dep in dists
    requires forall p | TemplateOf(dists, deps, p) :: p in fs
    ensures var r := StampTheme(fs, deps, dists, denied, t);
      && ((forall p | TemplateOf(dists, deps, p) :: p !in denied) ==>
            r == Stamped(StampAll(fs, Templates(dists, deps), t)))
      && ((exists p | TemplateOf(dists, deps, p) :: p in denied) ==>
            r.Denied? && r.file in denied && TemplateOf(dists, deps, r.file))
  {
    var files := HtmlFiles(deps, dists).value;
    assert Listed(files) == Templates(dists, deps);
    if forall p | TemplateOf(dists, deps, p) :: p !in denied {
      StampFilesEffect(fs, files, denied, t);
    }
  }

  /** A named distribution that is not installed raises
      PackageNotFoundError before any file is touched. */
  lemma StampThemeMissing(fs: FS, deps: seq<string>, dists: Installed, denied: set<Path>, t: Time)
    requires exists dep | dep in deps :: dep !in dists
    ensures StampTheme(fs, deps, dists, denied, t) == Failed(PackageNotFound, fs)
  {
  }

  /** As written, the templates stamped are those of the theme and of Sphinx
      and no others, whatever the theme requires. */
  lemma ThemeEffect(fs: FS, theme: string, dists: Installed, denied: set<Path>, t: Time)
    requires theme in dists && "sphinx" in dists
    requires forall p | TemplateOf(dists, [theme, "sphinx"], p) :: p in fs
    ensures var r := RestoreThemeFilesMtime(fs, theme, dists, denied, t);
      && ((forall p | TemplateOf(dists, [theme, "sphinx"], p) :: p !in denied) ==>
            r == Stamped(StampAll(fs, Templates(dists, [theme, "sphinx"]), t)))
      && ((exists p | TemplateOf(dists, [theme, "sphinx"], p) :: p in denied) ==>
            r.Denied? && r.file in denied && TemplateOf(dists, [theme, "sphinx"], r.file))
  {
    ThemeDepsIgnoreRequirements(theme, RequirementsOf(dists[theme]));
    StampThemeEffect(fs, [theme, "sphinx"], dists, denied, t);
  }

  /** A theme that is not an installed distribution, or an installed theme
      without Sphinx, raises PackageNotFoundError and touches nothing. */
  lemma ThemeMissing(fs: FS, theme: string, dists: Installed, denied: set<Path>, t: Time)
    requires theme !in dists || "sphinx" !in dists
    ensures RestoreThemeFilesMtime(fs, theme, dists, denied, t) == Failed(PackageNotFound, fs)
  {
    if theme in dists {
      ThemeDepsIgnoreRequirements(theme, RequirementsOf(dists[theme]));
      assert "sphinx" in [theme, "sphinx"];
    }
  }

  /** When every requirement of the theme is optional, the corrected loop
      selects the same distributions as the loop as written. */
  lemma {:induction false} CollectOptionalOnly(deps: seq<string>, reqs: seq<Requirement>)
    requires forall q | q in reqs :: q.hasMarker
    ensures CollectRequirements(deps, reqs) == ScanRequirements(deps, reqs)
    decreases |reqs|
  {
    if reqs != [] {
      assert reqs[0] in reqs;
      assert forall q | q in reqs[1..] :: q in reqs;
      CollectOptionalOnly(deps, reqs[1..]);
    }
  }

  lemma FixedThemeAgrees(fs: FS, theme: string, dists: Installed, denied: set<Path>, t: Time)
    requires theme in dists
    requires forall q | q in RequirementsOf(dists[theme]) :: q.hasMarker
    ensures RestoreThemeFilesMtimeFixed(fs, theme, dists, denied, t) == RestoreThemeFilesMtime(fs, theme, dists, denied, t)
  {
    CollectOptionalOnly([theme, "sphinx"], RequirementsOf(dists[theme]));
  }
}

=== FILE: utils.dfy ===
/** The tolerant tree helpers of the tool: copy and move wrap shutil.copytree
    and shutil.move and swallow FileNotFoundError, and only that exception
    (after logging a warning, which the model does not record). */
module Utils {
  import opened FileSystem
  import opened Shutil

  /** utils.copy(src, dst). */
  function Copy(fs: FS, src: Path, dst: Path): (r: Outcome)
    requires |dst| > 0 && !(src < dst)
    // only FileNotFoundError is swallowed; everything else propagates
    ensures r.Raised? <==> CopyTree(fs, src, dst).Raised? && CopyTree(fs, src, dst).err != FileNotFound
    ensures r.Raised? ==> r == CopyTree(fs, src, dst)
    ensures r.Raised? ==> r.fs == fs
    // a missing source changes nothing
    ensures src !in fs && !FileAncestor(fs, src) ==> r == Done(fs)
    // copying onto an existing path raises FileExistsError
    ensures IsDir(fs, src) && dst in fs && !FileAncestor(fs, dst) ==> r == Raised(FileExists, fs)
    // copying a directory to a free path duplicates it and leaves the source alone
    ensures WellFormed(fs) && IsDir(fs, src) && dst !in fs && !FileAncestor(fs, dst) ==>
      && r.Done?
      && WellFormed(r.fs)
      && Subtree(r.fs, dst) == Subtree(fs, src)
      && Subtree(r.fs, src) == Subtree(fs, src)
    // nothing outside dst changes, except that missing ancestors of dst become directories
    ensures forall q | q in fs && !(dst <= q) :: q in r.fs && r.fs[q] == fs[q]
    ensures forall q | q in r.fs && q !in fs :: dst <= q || (q < dst && r.fs[q] == Dir)
  {
    match CopyTree(fs, src, dst)
    case Raised(FileNotFound, _) => Done(fs)
    case o => o
  }

  /** utils.move(src, dst). */
  function Move(fs: FS, src: Path, dst: Path): (r: Outcome)
    requires |src| > 0 && |dst| > 0
    // only FileNotFoundError is swallowed; everything else propagates
    ensures r.Raised? <==> ShutilMove(fs, src, dst).Raised? && ShutilMove(fs, src, dst).err != FileNotFound
    ensures r.Raised? ==> r == ShutilMove(fs, src, dst)
    ensures r.Raised? ==> r.fs == fs
    // a missing source changes nothing, and only raises when dst is a
    // directory that already holds an entry of src's name
    ensures src !in fs ==> r.fs == fs
    ensures src !in fs && !FileAncestor(fs, src) && !(IsDir(fs, dst) && MoveTarget(fs, src, dst) in fs) ==>
      r == Done(fs)
    // a directory moved to a free path arrives whole and leaves nothing behind
    ensures WellFormed(fs) && IsDir(fs, src) && dst !in fs && !FileAncestor(fs, dst) && !(src <= dst) ==>
      && r.Done?
      && WellFormed(r.fs)
      && Subtree(r.fs, dst) == Subtree(fs, src)
      && Vacant(r.fs, src)
    // an existing directory dst receives src inside it, under src's own name
    ensures (WellFormed(fs) && IsDir(fs, src) && IsDir(fs, dst) && !(src <= dst)
             && MoveTarget(fs, src, dst) !in fs) ==>
      && r.Done?
      && WellFormed(r.fs)
      && Subtree(r.fs, dst + [Basename(src)]) == Subtree(fs, src)
      && Vacant(r.fs, src)
    // nothing outside src and dst changes, except that missing ancestors of
    // dst become directories
    ensures forall q | q in fs && !(src <= q) && !(dst <= q) :: q in r.fs && r.fs[q] == fs[q]
    ensures forall q | q in r.fs && q !in fs :: dst <= q || (q < dst && r.fs[q] == Dir)
  {
    assert WellFormed(fs) && IsDir(fs, dst) ==> !FileAncestor(fs, MoveTarget(fs, src, dst)) by {
      if WellFormed(fs) && IsDir(fs, dst) {
        var t := MoveTarget(fs, src, dst);
        AncestorsExist(fs, dst);
        forall i | 0 <= i < |t| ensures !(t[..i] in fs && fs[t[..i]].File?) {
          if i < |dst| {
            assert t[..i] == dst[..i];
          } else {
            assert t[..i] == dst;
          }
        }
      }
    }
    match ShutilMove(fs, src, dst)
    case Raised(FileNotFound, _) => Done(fs)
    case o => o
  }

  /** utils.move touches nothing but src and the entry it creates. */
  lemma MoveFrame(fs: FS, src: Path, dst: Path)
    requires |src| > 0 && |dst| > 0
    ensures var r := Move(fs, src, dst);
      && (forall q | q in fs && !(src <= q) && !(MoveTarget(fs, src, dst) <= q) :: q in r.fs && r.fs[q] == fs[q])
      && (forall q | q in r.fs && q !in fs ::
            MoveTarget(fs, src, dst) <= q || (q < MoveTarget(fs, src, dst) && r.fs[q] == Dir))
  {
    ShutilMoveFrame(fs, src, dst);
  }
}
